=== FILE: README.md ===
# chess_bot core, modelled in Dafny

chess_bot (AllRustBot) is a small UCI chess engine written in Rust on top of
the shakmaty board library. This project models its core:

- **the PeSTO evaluation** (`src/eval.rs`): two sets of piece-square tables
  are built once, for middlegame and endgame. Black reads them at the square
  mirrored by `square ^ 56`. Each piece adds its table entry to its colour's
  total and adds a role-dependent increment to a game-phase counter. The own
  minus opponent score of each stage is blended with weights `min(phase, 24)`
  and `24 - min(phase, 24)`, and the sum is divided by 24 with truncation.
  A finished game scores ±100 000 000 or 0.
- **the material engine** (`src/engine.rs`): a material evaluation from the
  side to move's point of view, a depth-limited negamax that starts from
  `i64::MIN`, and `next_move`, which picks the move with the largest negated
  child score, the last one among equal keys.
- **the UCI command interpreter** (the pure part of `src/main.rs`): input
  lines are trimmed, blank ones are skipped, and the rest are split on
  whitespace and dispatched on their first word. The commands are
  `position`, `go`, `isready`, `uci`, `quit`, `stop`, `ucinewgame` and
  `setoption`.

Modules:

| module | file | contents |
|---|---|---|
| `Chess` | chess.dfy | colours, roles, pieces, outcomes, the terminal score both evaluators share |
| `Arith` | arith.dfy | `TDiv`, Rust's truncating signed division (Dafny's `/` is Euclidean); the bit facts behind `s ^ 56` |
| `PestoTables` | pesto_tables.dfy | the twelve 64-entry tables and the two piece-value rows |
| `Pesto` | pesto.dfy | squares and `Flip`, phase weights, table construction, `Evaluate` |
| `PestoSymmetry` | pesto_symmetry.dfy | colour symmetry of the PeSTO evaluation; the start position scores 0 |
| `Engine` | engine.dfy | material `Evaluate`, `Negamax`, `NextMove` over an abstract game tree |
| `EngineMinimax` | engine_minimax.dfy | a minimax reference definition, and negamax proved equal to it |
| `Text` | text.dfy | `split_whitespace`, `trim`, `join`, `position`, `eq_ignore_ascii_case`, `parse::<u64>` |
| `Uci` | uci.dfy | engine state, the command handlers, the input loop |
| `UciProperties` | uci_properties.dfy | what the interpreter promises, as lemmas |

Modelling choices:

- **Colours index arrays as shakmaty numbers them:** Black = 0 and
  White = 1. A role's table row is `role as usize - 1`.
- **Squares are numbered as in shakmaty:** a1 = 0, b1 = 1, …, h8 = 63.
  `Flip` is defined arithmetically: the file is kept and the rank
  mirrored. `Pesto.FlipIsXor` proves it equal to the engine's `square ^ 56`
  on every square.
- **The PeSTO position is a 64-square board** (`seq<Option<Piece>>`) plus
  the side to move and the game-over verdict and outcome. shakmaty computes
  the verdict and outcome; here they are inputs.
- **The material engine works on an abstract game tree.** Each `Node`
  carries the side to move, the verdict and outcome, the piece counts per
  colour and role, and one child per legal move in move-list order.
- **The engine's tuning constants** (piece values and the mate score) live
  in `src/engine_hyperparams.rs`, which is not part of this model. They are
  a record parameter `Hyper`; the mate score is required to be positive.
- **The interpreter is generic** in the position type and the move type. A
  `Rules` record supplies what shakmaty provides: the default position,
  whose turn it is, FEN parsing, UCI move parsing, and playing a move
  (`None` when it is illegal).
- **Panics become values.** The three `expect` panics of `position` are
  `Panic(fault)`: the FEN-parse and `into_position` panics both become
  `InvalidFen`, and a bad move text becomes `InvalidMoveText`. `quit` is
  `Exit`. The input loop `Run` records either one as the reason the process
  stopped.
- **`go` returns a `SearchJob`** (the position and the think time in
  milliseconds) instead of spawning threads.
- **Integers are unbounded.** Rust's signed `/` on the blend is `TDiv`.
  `i64::MIN` appears as the constant it is, and
  `EngineMinimax.NegamaxIsMinimax` states when negamax's results stay within
  the `i64` range.

Note on table orientation. The PeSTO tables as published list rank 8
first, so their index 0 is a8. The engine indexes them by shakmaty square
numbers, where index 0 is a1. So both colours read the tables mirrored from
PeSTO's intent: White reads each printed table upside down, and Black, whose
entries sit at the flipped square, reads at its own square the value PeSTO
meant for the White piece on that square. `Pesto.WhitePawnTableOrientation`
shows the effect. A middlegame White pawn on e2 is worth 150, on e4 105 and
on e7 67, and a Black pawn on e7, its home square, is worth 150 just like
White's on e2. The published table intends the opposite ordering. Because
both colours are mirrored alike, the evaluation stays colour-symmetric and
the start position still scores 0. The model follows the code as written.

## Model

| member | source | states |
|---|---|---|
| Chess.TerminalScore | src/eval.rs:250-261 | a finished game scores +mate exactly when the side to move won, -mate exactly when the other side won, and 0 exactly when there is no decisive outcome |
| Chess.TerminalScoreSwapTurn | src/engine.rs:52-63 | the score of a finished game changes sign when the side to move is swapped |
| Arith.TDiv | src/eval.rs:279 | the quotient times the divisor is the multiple of the divisor nearest the dividend on the side of zero (Rust's truncating `/`), for both signs of the dividend |
| Arith.TDivNeg | src/eval.rs:279 | truncating division commutes with negation, which Euclidean division does not |
| Pesto.Flip | src/eval.rs:186-188 | flipping keeps the file and mirrors the rank (rank r becomes 7 - r) |
| Pesto.FlipIsXor | src/eval.rs:186-188 | the flip is exactly the engine's exclusive-or of the square number with 56 |
| Pesto.FlipInvolution | src/eval.rs:186-188 | flipping twice gives back the square |
| Pesto.FlipRankFile | src/eval.rs:186-188 | the square at rank r and file f flips to rank 7 - r and file f |
| Pesto.FlipInjective | src/eval.rs:186-188 | distinct squares flip to distinct squares |
| Pesto.PhaseIncrease | src/eval.rs:175-184 | a role adds at most 4 to the phase counter, and adds 0 exactly for pawns and kings |
| Pesto.PhaseWeights | src/eval.rs:276-277 | both weights lie in 0..24 and sum to 24; the middlegame weight is the phase up to 24; it is 24 exactly when the phase is at least 24; the endgame weight is 24 exactly at phase 0 |
| Pesto.TableEntry | src/eval.rs:268-270 | the entry read for a piece: the table value plus the piece value, at the square for White and at the flipped square for Black. `Pesto.BuildTable` proves the built tables hold exactly these entries |
| Pesto.TableEntryMirror | src/eval.rs:210-211 | a piece is valued as the same piece of the other colour on the flipped square |
| Pesto.FillRow | src/eval.rs:198-212 | one row pass writes table plus piece value at every White square and at every flipped Black square, and leaves every other row unchanged |
| Pesto.BuildTable | src/eval.rs:193-243 | the built table has shape 2×6×64; each White entry is the constant table plus the piece value; each Black entry at a flipped square equals the White entry; every entry is `TableEntry` |
| Pesto.Accumulate | src/eval.rs:268-272 | after the first n squares, the phase counter lies between 0 and 4n. `PestoSymmetry.AccumulatePhaseIsSum` and `PestoSymmetry.AccumulateIsSum` state the counter and each colour's totals as sums over those squares |
| Pesto.StageScore | src/eval.rs:274-275 | the mover's total minus the opponent's for one stage. `PestoSymmetry.AccumulateIsSum` states each total as a sum over the board, and `PestoSymmetry.EvaluateSwapTurn` that the score changes sign with the mover |
| Pesto.Blend | src/eval.rs:276-279 | the blended score lies between the two stage scores; it is the middlegame score once the phase reaches 24 and the endgame score at phase 0 |
| Pesto.Evaluate | src/eval.rs:247-280 | a finished game gets the terminal score with MATE_SCORE; otherwise the score lies between the middlegame and endgame own-minus-opponent scores, with the two phase extremes giving exactly one of them |
| Pesto.WhitePawnTableOrientation | src/eval.rs:32-41 | the White middlegame pawn entries on e2, e4 and e7 are 150, 105 and 67, so White reads the table with a1 first; a Black pawn on e7 is worth 150, the mirror of White's on e2 |
| PestoSymmetry.SumFlip | src/eval.rs:186-188 | reading a board-indexed sequence at the flipped squares leaves its sum unchanged |
| PestoSymmetry.AccumulateIsSum | src/eval.rs:268-272 | a colour's running total after n squares is the sum of the per-square contributions of that colour below n |
| PestoSymmetry.AccumulatePhaseIsSum | src/eval.rs:268-271 | the phase counter after the first n squares is the sum of the phase increments of the pieces on them, of either colour |
| PestoSymmetry.StartPhase | src/eval.rs:175-184 | the starting position's phase counter is 24 (two back ranks of 12 each, pawns and kings adding nothing), so it is scored as a pure middlegame |
| PestoSymmetry.EvaluateSwapTurn | src/eval.rs:274-279 | for a game in progress, handing the move to the other side negates the evaluation |
| PestoSymmetry.EvaluateSwapTurnFinished | src/eval.rs:250-261 | for a finished game, handing the move to the other side negates the evaluation |
| PestoSymmetry.BlendNegate | src/eval.rs:276-279 | negating both stage scores negates the blended, truncated score |
| PestoSymmetry.MirroredContributions | src/eval.rs:210-211 | on a colour-mirrored board, Black's per-square contributions are White's read at the flipped squares |
| PestoSymmetry.MirroredTotalsEqual | src/eval.rs:268-272 | on a colour-mirrored board, both colours' totals are equal for each stage |
| PestoSymmetry.EvaluateMirroredIsZero | src/eval.rs:274-279 | a game in progress on a colour-mirrored board scores 0, whoever is to move |
| PestoSymmetry.StartBoardMirrored | src/eval.rs:287-291 | the standard initial arrangement is colour-mirrored |
| PestoSymmetry.StartPositionScoresZero | src/eval.rs:287-291 | the default position with White to move evaluates to 0 |
| Engine.IsOpponent | src/engine.rs:106-108 | the sign is +1 exactly when the piece colour is the side to move and -1 exactly otherwise |
| Engine.GetScore | src/engine.rs:94-103 | the value of one piece of a role, read from the tuning constants. Its properties are stated through `Engine.SideScore` and `Engine.SideScoreMonotone` |
| Engine.SideScore | src/engine.rs:69-78 | with no negative piece value, a side's score is non-negative; with positive values it is 0 exactly when the side has no piece |
| Engine.MaterialLoop | src/engine.rs:67-88 | the colour loop adds the mover's side score and subtracts the others'. `Engine.MaterialLoopIsWeighted` proves it equals the `is_opponent`-weighted sum and `Engine.BothColours` that it is own minus opponent in either order |
| Engine.MaterialLoopIsWeighted | src/engine.rs:67-88 | the add-own/subtract-other colour loop equals the sum of each side's score signed by `is_opponent` |
| Engine.BothColours | src/engine.rs:67-88 | over both colours, in either iteration order, the loop gives own material minus the opponent's |
| Engine.Evaluate | src/engine.rs:46-91 | a finished game gets the terminal score with the mate constant; otherwise own side score minus the opponent's side score |
| Engine.EvaluateSwapTurn | src/engine.rs:44-45 | handing the move to the other side negates the material evaluation, for finished and unfinished games |
| Engine.EqualMaterialScoresZero | src/engine.rs:116-120 | equal armies in a game in progress score 0 |
| Engine.SideScoreMonotone | src/engine.rs:69-78 | with no negative piece value, an army with at least as many of every role, and more of one role whose value is positive, has a larger side score |
| Engine.MaterialAdvantage | src/engine.rs:44-45 | with no negative piece value, the side to move scores above 0 when its army dominates (at least as many of every role, more of one with positive value) and below 0 when the opponent's army dominates |
| Engine.QueensAgainstKing | src/engine.rs:123-139 | with any positive queen value, whatever the other piece values, king and seven queens against a lone king scores above 0 with White to move and below 0 with Black to move |
| Engine.Negamax | src/engine.rs:22-25 | at depth 0 or in a finished game, negamax is the static evaluation |
| Engine.MaxChild | src/engine.rs:27-39 | the running maximum never decreases |
| Engine.MaxChildBounds | src/engine.rs:30-41 | the loop's result is at least every remaining negated child score and is either the starting maximum or one of those scores |
| Engine.NegamaxIsMax | src/engine.rs:22-42 | for a game in progress at depth > 0, negamax is at least `i64::MIN` and every negated child score; it is `i64::MIN` with no moves; otherwise it is `i64::MIN` or one of the child scores |
| Engine.NextMove | src/engine.rs:6-20 | no move exactly when there are no legal moves; otherwise a valid index whose key is maximal, with every later key strictly smaller (last maximum wins); that key equals negamax at the root when the game is in progress |
| EngineMinimax.ExtremeIsExtreme | src/engine.rs:30-39 | the reference fold picks one child value, the largest when the root player moves and the smallest otherwise |
| EngineMinimax.NegamaxIsMinimax | src/engine.rs:22-42 | on a tree with alternating turns, a move in every unfinished position and evaluations within ±i64::MAX, negamax is the minimax value signed for the side to move, and stays within ±i64::MAX |
| Text.WordLength | src/main.rs:41 | the first word's length: no whitespace before it, whitespace or the end right after it |
| Text.IsWhitespace | src/main.rs:41 | among ASCII characters, exactly space, tab, line feed, vertical tab, form feed and carriage return separate words |
| Text.Tokens | src/main.rs:41 | every token is a non-empty run without whitespace; the list is empty exactly when the line is all whitespace. `Text.TokensOfInterleave` and `Text.SplitAtTokens` fix which tokens come out |
| Text.TokensOfJoin | src/main.rs:71-72 | splitting tokens joined by single spaces gives back the tokens |
| Text.Join | src/main.rs:71-72 | joining with single spaces. `Text.TokensOfJoin` proves that splitting the joined text gives the tokens back |
| Text.JoinIsInterleave | src/main.rs:71-72 | a non-empty token list joined with `" "` is the tokens with nothing before the first, nothing after the last and exactly one space between each two |
| Text.TokensOfInterleave | src/main.rs:41 | any tokens, with any whitespace before and after them and a non-empty whitespace run between each two, split back into exactly those tokens |
| Text.SplitAtTokens | src/main.rs:41 | every line is its tokens with whitespace runs around and between them, so together with `Text.TokensOfInterleave` the tokens are exactly the line's maximal whitespace-free runs |
| Text.TrimStart | src/main.rs:269-272 | the result is a suffix, what was dropped is all whitespace, and the result does not start with whitespace |
| Text.TrimEnd | src/main.rs:269-272 | the result is a prefix, what was dropped is all whitespace, and the result does not end with whitespace |
| Text.Trim | src/main.rs:269-272 | the trimmed line neither starts nor ends with whitespace and has the same tokens as the line |
| Text.TokensOfTrim | src/main.rs:268-277 | trimming does not change a line's tokens, and the trimmed line is empty exactly when the line has no token |
| Text.IndexOf | src/main.rs:65 | no index exactly when the word is absent; otherwise the index holds the word and no earlier element does |
| Text.EqIgnoreAsciiCase | src/main.rs:74 | equal texts match; matching texts have equal length; at every position a lower-case letter matches only itself or its upper-case form; conversely, texts of equal length that agree at every position up to upper-casing letters of the second match |
| Text.ParseU64 | src/main.rs:160 | a parsed value is below 2^64, and parsing succeeds only on text starting with a digit or `+` |
| Text.ShowNat | src/main.rs:160 | the rendering is a non-empty digit string whose decimal value is the number |
| Text.ParseShowNat | src/main.rs:160 | parsing the decimal rendering of a number below 2^64 gives the number back |
| Uci.HandleSetOption | src/main.rs:59-81 | setoption never changes the position or the thinking flag, and without a leading `name` changes nothing |
| Uci.NewState | src/main.rs:30-37 | a fresh engine introduces itself as `AllRustBot` and is idle, so its first `go` starts a search of the default position |
| Uci.UciLines | src/main.rs:84-89 | the `uci` reply is four lines ending in `uciok` |
| Uci.ApplyMoves | src/main.rs:130-137 | playing move texts can only fail with the bad-move-text panic. `UciProperties.ApplyMovesFails` states exactly when it fails |
| Uci.HandlePosition | src/main.rs:106-140 | `position` never exits, prints nothing, starts no search and changes only the position; a bad FEN panics only after `fen` |
| Uci.ScanGo | src/main.rs:155-184 | a clock once read is never forgotten, a clock that changes holds a 64-bit value, and arguments without a clock keyword change nothing |
| Uci.ThinkTime | src/main.rs:191-200 | with the mover's clock given, the budget is that clock divided by 20 and rounded down; without it, 100 ms |
| Uci.HandleGo | src/main.rs:143-212 | `go` while thinking changes nothing; otherwise it sets the thinking flag, prints nothing and starts a search of the current position |
| Uci.HandleCommand | src/main.rs:40-56 | dispatches on the line's whitespace-separated tokens: a whitespace-only line changes nothing, the line exits exactly when its first word is `quit`, and only a `position` line panics |
| Uci.Dispatch | src/main.rs:40-56 | only `quit` exits, only `position` panics, only `go` starts a search, only `isready` and `uci` print, and an empty line or unknown command changes nothing |
| Uci.ProcessLine | src/main.rs:268-277 | a whitespace-only line is skipped; any other line is dispatched on the tokens of the raw line |
| Uci.Step | src/main.rs:268-281 | one line only extends what was printed and which searches started; a line that stops the process leaves the state and the output as they were |
| Uci.Run | src/main.rs:264-282 | the loop only extends what was printed and which searches started, and once stopped handles no further line |
| UciProperties.ProcessLineDispatchesTokens | src/main.rs:268-277 | handling a line after trimming and skipping blanks is dispatching on the raw line's tokens |
| UciProperties.IgnoredLines | src/main.rs:40-56 | a blank line, or one whose first word is not a command, leaves the state unchanged and prints nothing |
| UciProperties.NewGameAndStop | src/main.rs:249-256 | `ucinewgame` resets only the position; `stop` clears only the thinking flag |
| UciProperties.RunSkipsBlankLine | src/main.rs:273-275 | a blank input line has no effect on the run |
| UciProperties.IsReadyReplies | src/main.rs:92-103 | a line whose first word is `isready` answers `readyok` and leaves the state unchanged |
| UciProperties.QuitEndsRun | src/main.rs:259-261 | a `quit` line stops the loop with the state and output so far, and no later line is handled |
| UciProperties.RunAppend | src/main.rs:268-281 | the loop over two batches of lines is the loop over the first, then over the second from where it stopped |
| UciProperties.NickIsOneToken | src/main.rs:71-74 | an option name of two or more tokens never matches `nick` in any letter case |
| UciProperties.SetOptionOnlyRenames | src/main.rs:59-81 | setoption either changes nothing or is `name <nick> value V…` and sets the nickname to the V tokens joined by spaces |
| UciProperties.SetOptionRenames | src/main.rs:59-81 | conversely, `name <nick> value V…` sets the nickname to the V tokens joined by spaces |
| UciProperties.SetOptionAnyCase | src/main.rs:74-76 | the option name matches regardless of ASCII case: `NICK` and `Nick` rename the engine as `nick` does |
| UciProperties.UciAfterRename | src/main.rs:74-88 | after a rename, the `uci` reply names the engine and the option default by the new nickname |
| UciProperties.PositionIgnoresOtherForms | src/main.rs:125-128 | `position` with no argument or a first argument other than `startpos`/`fen` changes nothing |
| UciProperties.ApplyMovesAppend | src/main.rs:130-137 | playing two batches of move texts is playing the first, then the second from where it left off, and a panic in the first stops everything |
| UciProperties.ApplyMovesFails | src/main.rs:131-132 | playing move texts panics exactly when one of them is not UCI move syntax |
| UciProperties.ApplyMovesSkipsIllegal | src/main.rs:133-135 | a well-formed move that is illegal in the current position is skipped |
| UciProperties.PositionFenWithMoves | src/main.rs:113-137 | `position fen F… moves M…` parses the F tokens joined by spaces, panics on a bad FEN, and otherwise plays the M moves |
| UciProperties.PositionFenOnly | src/main.rs:113-124 | `position fen F…` without `moves` sets the position from all the F tokens, or panics on a bad FEN |
| UciProperties.PositionStartposOnly | src/main.rs:110-139 | `position startpos` without `moves` sets the default position and changes nothing else, ignoring any tokens after `startpos` |
| UciProperties.PositionStartposWithMoves | src/main.rs:110-112 | `position startpos … moves M…` plays the M moves from the default position, ignoring tokens before `moves` |
| UciProperties.ScanGoSound | src/main.rs:155-184 | each clock value the scan ends with is the one it started with or was read from a `wtime`/`btime` token followed by a parsable number |
| UciProperties.ScanGoAppend | src/main.rs:155-184 | when the first batch does not end in a clock keyword, scanning both batches is scanning the first and continuing with the second |
| UciProperties.LastWtimeWins | src/main.rs:158-163 | a final `wtime N` sets White's clock to N and keeps Black's |
| UciProperties.PlusSignedClock | src/main.rs:158-163 | `wtime +N` sets White's clock to N, since `u64` parsing accepts a leading `+` |
| UciProperties.UnparsableClockIgnored | src/main.rs:159-163 | a clock keyword with an unparsable value consumes both tokens without effect |
| UciProperties.GoBudget | src/main.rs:191-200 | with both clocks given, the search budget is the mover's clock divided by 20 |

## Left out

- `POSITIVE_INFINITY` and `NEGATIVE_INFINITY` (src/eval.rs:26-27): none
  of the modelled code reads them. Negamax starts from `i64::MIN` instead.
- Threads: the search thread, the timer thread, the shared atomic
  `is_thinking` flag, and `isready` joining a finished thread (main.rs
  92-103, 186-246). `go` is modelled up to the `SearchJob` it starts, and
  `isready` replies `readyok` without touching threads.
- The timer clearing the thinking flag after the budget, the `info time`
  line and the `bestmove` line. All three happen on other threads at times
  the model has no clock for.
- I/O: reading stdin (and its `expect`), printing, flushing and
  `process::exit`. Input is a sequence of lines, output a sequence of
  strings, and `quit` stops the loop.
- `Searcher`, its transposition table and the iterative deepening in
  `handle_go` live in code that is not part of this model. The model
  covers `next_move`/`negamax` of `src/engine.rs`, which do not use them.
- shakmaty itself: move generation, FEN parsing, UCI move parsing, move
  play, game-over and outcome detection. These are inputs (`Rules`, the
  `Node` tree, the `Position` verdict), not definitions.
- `src/engine_hyperparams.rs` is not part of this model. Its values are the
  `Hyper` parameter.
- `OnceLock` lazy initialisation: `BuildTable` computes the table directly.
  `Evaluate` reads the resulting entries through `TableEntry`, which
  `BuildTable` proves it agrees with.
- Engine.Evaluate and Pesto.Evaluate: 64-bit overflow is not modelled,
  because integers are unbounded. No board reaches the limit. Negamax
  returns `i64::MIN`, whose negation would overflow, only for an unfinished
  node without legal moves, which a well-formed tree does not contain
  (`EngineMinimax.WellFormed`). `EngineMinimax.NegamaxIsMinimax` proves the
  results stay within ±`i64::MAX` on such trees.
- Engine.NextMove: returns the index of the chosen child, not a move value.
  With no legal move it returns `None` where the engine panics with "No
  legal moves found". Its `depth >= 1` precondition mirrors the engine's
  unsigned `depth - 1`, which would underflow at 0.
- Text.EqIgnoreAsciiCase: compares characters. Rust compares UTF-8 bytes,
  which gives the same answer because ASCII lowering never changes a
  non-ASCII character.
- Text.ParseU64: the contract bounds the result and the first character.
  Full correctness is stated by the round trip `Text.ParseShowNat` rather
  than by an inverse for every digit string (leading zeros, a leading `+`).
- UciProperties.ScanGoSound: states that each final clock value was read
  from some keyword occurrence, not that it is the last one. The last-wins
  behaviour is stated compositionally by `UciProperties.ScanGoAppend` and
  `UciProperties.LastWtimeWins`. A direct "last occurrence" statement would
  also have to say which `wtime` tokens were consumed as the values of
  earlier keywords.

=== FILE: arith.dfy ===
/** Machine arithmetic the evaluator relies on. Integer division as the
    engine's 64-bit signed `/` performs it: the quotient is truncated toward
    zero. Dafny's own `/` is Euclidean, so the two differ on negative
    dividends. And the bit facts behind the square flip `s ^ 56`. */
module Arith {

  function Min(a: int, b: int): int {
    if a <= b then a else b
  }

  function Max(a: int, b: int): int {
    if a <= b then b else a
  }

  /** Quotient rounded toward zero: the quotient times the divisor is the
      multiple of the divisor nearest to `a` on the side of zero. */
  function TDiv(a: int, d: int): (q: int)
    requires d > 0
    ensures a >= 0 ==> 0 <= q * d <= a < q * d + d
    ensures a < 0 ==> q * d - d < a <= q * d <= 0
  {
    if a >= 0 then
      EuclidFacts(a, d);
      a / d
    else
      EuclidFacts(-a, d);
      -((-a) / d)
  }

  lemma EuclidFacts(a: nat, d: int)
    requires d > 0
    ensures 0 <= (a / d) * d <= a < (a / d) * d + d
  {
    assert a == d * (a / d) + a % d;
  }

  /** Truncating division is odd: it commutes with negation. Euclidean
      division is not (-1 / 24 == -1 but 1 / 24 == 0). */
  lemma TDivNeg(a: int, d: int)
    requires d > 0
    ensures TDiv(-a, d) == -TDiv(a, d)
  {
  }

  lemma TDivMonotone(a: int, b: int, d: int)
    requires d > 0 && a <= b
    ensures TDiv(a, d) <= TDiv(b, d)
  {
    var qa, qb := TDiv(a, d), TDiv(b, d);
    QuotientOrder(qa, qb, d);
  }

  /** Multiples of a positive number less than one step apart are ordered
      like their factors. */
  lemma QuotientOrder(x: int, y: int, d: int)
    requires d > 0 && x * d < y * d + d
    ensures x <= y
  {
    assert (x - y) * d == x * d - y * d;
    BelowOneStep(x - y, d);
  }

  lemma BelowOneStep(k: int, d: int)
    requires d > 0
    ensures k * d < d ==> k <= 0
  {
    if k >= 1 {
      MulStep(k, d);
    }
  }

  lemma MulStep(k: int, d: int)
    requires k >= 1 && d > 0
    ensures k * d >= d
  {
  }

  lemma TDivExact(k: int, d: int)
    requires d > 0
    ensures TDiv(k * d, d) == k
  {
    var q := TDiv(k * d, d);
    QuotientOrder(q, k, d);
    QuotientOrder(k, q, d);
  }

  /** A number below 64 survives the round trip through a byte. */
  lemma SmallAsBits(n: nat)
    requires n < 64
    ensures (n as bv8) as nat == n
  {
  }

  /** On six-bit values, exclusive or with 56 is arithmetic on the low
      three bits. */
  lemma XorFiftySix(b: bv8)
    requires b < 64
    ensures (b ^ 56) as nat == 56 - b as nat + 2 * ((b & 7) as nat)
    ensures (b & 7) as nat == b as nat % 8
  {
  }
}

=== FILE: chess.dfy ===
/** Vocabulary shared by the evaluators and the command interpreter: colours,
    piece roles, pieces, game outcomes and the score of a finished game. */
module Chess {

  /** A side. The numbering follows the board library the engine uses:
      Black is 0 and White is 1 when a colour indexes an array. */
  datatype Color = Black | White {

    function Other(): Color {
      if this == White then Black else White
    }

    function Index(): (i: nat)
      ensures i < 2
    {
      if this == White then 1 else 0
    }
  }

  /** Piece roles, in the library's order (Pawn = 1 … King = 6). */
  datatype Role = Pawn | Knight | Bishop | Rook | Queen | King {

    /** `role as usize - 1`: the role's row in a piece-square table. */
    function Index(): (i: nat)
      ensures i < 6
    {
      match this
      case Pawn => 0
      case Knight => 1
      case Bishop => 2
      case Rook => 3
      case Queen => 4
      case King => 5
    }
  }

  datatype Piece = Piece(color: Color, role: Role)

  /** How a finished game ended. */
  datatype Outcome = Decisive(winner: Color) | Draw

  datatype Option<+T> = None | Some(value: T)

  /** The score of a position whose game is over, seen from the side to move:
      `mate` for a win of the side to move, `-mate` for any other decisive
      result, and 0 for a draw or when no outcome is reported. Shared by both
      evaluators; each supplies its own mate constant. */
  function TerminalScore(mate: int, turn: Color, outcome: Option<Outcome>): (r: int)
    requires mate > 0
    ensures r == mate <==> outcome == Some(Decisive(turn))
    ensures r == -mate <==> outcome == Some(Decisive(turn.Other()))
    ensures r == 0 <==> !(outcome.Some? && outcome.value.Decisive?)
  {
    match outcome
    case Some(Decisive(winner)) => if winner == turn then mate else -mate
    case _ => 0
  }

  /** Swapping the side to move negates the score of a decided game. */
  lemma TerminalScoreSwapTurn(mate: int, turn: Color, outcome: Option<Outcome>)
    requires mate > 0
    ensures TerminalScore(mate, turn.Other(), outcome) == -TerminalScore(mate, turn, outcome)
  {
  }
}

=== FILE: engine.dfy ===
/** The material evaluator and the depth-limited negamax search of
    src/engine.rs, over an abstract game tree. A node carries what the search
    reads from a position: the side to move, the game-over verdict and
    outcome, the piece counts, and one child per legal move, in move-list
    order. Piece values and the mate score are tuning parameters defined
    outside the file, so they are passed in. */
module Engine {
  import opened Chess

  /** `i64::MIN`, the starting value of negamax's running maximum. */
  const I64_MIN: int := -0x8000_0000_0000_0000

  /** The engine's tuning constants: one value per role and the mate score. */
  datatype Hyper = Hyper(pawn: int, knight: int, bishop: int, rook: int, queen: int, king: int, mate: int)

  /** Piece counts of one colour, per role. */
  datatype ByRole = ByRole(pawn: nat, knight: nat, bishop: nat, rook: nat, queen: nat, king: nat) {

    function Get(r: Role): nat {
      match r
      case Pawn => pawn
      case Knight => knight
      case Bishop => bishop
      case Rook => rook
      case Queen => queen
      case King => king
    }
  }

  /** Piece counts of both colours. */
  datatype Material = Material(black: ByRole, white: ByRole) {

    function Of(c: Color): ByRole {
      if c == White then white else black
    }
  }

  datatype Node = Node(turn: Color, gameOver: bool, outcome: Option<Outcome>, material: Material, children: seq<Node>)

  /** `get_score`: the value of one piece of role `r`. */
  function GetScore(h: Hyper, r: Role): int {
    match r
    case Pawn => h.pawn
    case Knight => h.knight
    case Bishop => h.bishop
    case Rook => h.rook
    case Queen => h.queen
    case King => h.king
  }

  /** `is_opponent`: +1 for the side whose turn it is, −1 for the other. */
  function IsOpponent(pieceColor: Color, ourColor: Color): (r: int)
    ensures r == 1 <==> pieceColor == ourColor
    ensures r == -1 <==> pieceColor != ourColor
  {
    if pieceColor == ourColor then 1 else -1
  }

  /** The summed value of one colour's pieces, role by role. It is never
      negative when no value is, and with positive values it is positive
      exactly when the side has a piece. */
  function SideScore(h: Hyper, pieces: ByRole): (r: int)
    ensures NonNegativeValues(h) ==> r >= 0
    ensures PositiveValues(h) ==> (r == 0 <==> pieces == ByRole(0, 0, 0, 0, 0, 0))
  {
    GetScore(h, Pawn) * pieces.pawn + GetScore(h, Knight) * pieces.knight
      + GetScore(h, Bishop) * pieces.bishop + GetScore(h, Rook) * pieces.rook
      + GetScore(h, Queen) * pieces.queen + GetScore(h, King) * pieces.king
  }

  /** The colour loop of the material evaluation: the mover's side score is
      added and every other side's score subtracted. */
  function MaterialLoop(h: Hyper, m: Material, turn: Color, colors: seq<Color>): int {
    if |colors| == 0 then 0
    else
      var c := colors[|colors| - 1];
      var side := SideScore(h, m.Of(c));
      var total := MaterialLoop(h, m, turn, colors[..|colors| - 1]);
      if c == turn then total + side else total - side
  }

  /** The same total written with `is_opponent` as the sign of each side. */
  function Weighted(h: Hyper, m: Material, turn: Color, colors: seq<Color>): int {
    if |colors| == 0 then 0
    else IsOpponent(colors[0], turn) * SideScore(h, m.Of(colors[0])) + Weighted(h, m, turn, colors[1..])
  }

  lemma {:induction false} MaterialLoopIsWeighted(h: Hyper, m: Material, turn: Color, colors: seq<Color>)
    ensures MaterialLoop(h, m, turn, colors) == Weighted(h, m, turn, colors)
    decreases |colors|
  {
    if |colors| > 0 {
      var init, last := colors[..|colors| - 1], colors[|colors| - 1];
      MaterialLoopIsWeighted(h, m, turn, init);
      WeightedSnoc(h, m, turn, init, last);
      assert init + [last] == colors;
    }
  }

  lemma {:induction false} WeightedSnoc(h: Hyper, m: Material, turn: Color, colors: seq<Color>, c: Color)
    ensures Weighted(h, m, turn, colors + [c])
            == Weighted(h, m, turn, colors) + IsOpponent(c, turn) * SideScore(h, m.Of(c))
    decreases |colors|
  {
    if |colors| == 0 {
      assert colors + [c] == [c];
      assert [c][1..] == [];
    } else {
      assert (colors + [c])[1..] == colors[1..] + [c];
      WeightedSnoc(h, m, turn, colors[1..], c);
    }
  }

  /** `evaluate`: the material score from the side to move's point of view,
      or the mate/draw score of a finished game. */
  function Evaluate(h: Hyper, n: Node): (r: int)
    requires h.mate > 0
    ensures n.gameOver ==> r == TerminalScore(h.mate, n.turn, n.outcome)
    ensures !n.gameOver ==>
              r == SideScore(h, n.material.Of(n.turn)) - SideScore(h, n.material.Of(n.turn.Other()))
  {
    if n.gameOver then TerminalScore(h.mate, n.turn, n.outcome)
    else
      BothColours(h, n.material, n.turn);
      MaterialLoop(h, n.material, n.turn, [White, Black])
  }

  /** Over the two colours, in either order, the weighted total is own
      minus opponent. */
  lemma BothColours(h: Hyper, m: Material, turn: Color)
    ensures MaterialLoop(h, m, turn, [White, Black])
            == SideScore(h, m.Of(turn)) - SideScore(h, m.Of(turn.Other()))
    ensures MaterialLoop(h, m, turn, [Black, White])
            == SideScore(h, m.Of(turn)) - SideScore(h, m.Of(turn.Other()))
  {
    MaterialLoopIsWeighted(h, m, turn, [White, Black]);
    MaterialLoopIsWeighted(h, m, turn, [Black, White]);
    var sw, sb := SideScore(h, m.Of(White)), SideScore(h, m.Of(Black));
    assert [White, Black][1..] == [Black];
    assert [Black, White][1..] == [White];
    assert [Black][1..] == [] && [White][1..] == [];
    assert Weighted(h, m, turn, [Black]) == IsOpponent(Black, turn) * sb;
    assert Weighted(h, m, turn, [White]) == IsOpponent(White, turn) * sw;
    assert Weighted(h, m, turn, [White, Black]) == IsOpponent(White, turn) * sw + IsOpponent(Black, turn) * sb;
    assert Weighted(h, m, turn, [Black, White]) == IsOpponent(Black, turn) * sb + IsOpponent(White, turn) * sw;
  }

  /** `negamax`: a terminal node or depth 0 is scored by `Evaluate`;
      otherwise the result is the largest negated child score, starting from
      `i64::MIN`. */
  function Negamax(h: Hyper, n: Node, depth: nat): (r: int)
    requires h.mate > 0
    ensures depth == 0 || n.gameOver ==> r == Evaluate(h, n)
    decreases n, 1
  {
    if depth == 0 || n.gameOver then Evaluate(h, n)
    else MaxChild(h, n, depth, 0, I64_MIN)
  }

  /** The loop over the legal moves from child `i` on, with `best` the
      maximum so far. */
  function MaxChild(h: Hyper, n: Node, depth: nat, i: nat, best: int): (r: int)
    requires h.mate > 0 && depth > 0 && i <= |n.children|
    ensures r >= best
    decreases n, 0, |n.children| - i
  {
    if i == |n.children| then best
    else
      var score := -Negamax(h, n.children[i], depth - 1);
      MaxChild(h, n, depth, i + 1, if score > best then score else best)
  }

  /** The score the parent sees for its `j`-th move. */
  function ChildScore(h: Hyper, n: Node, depth: nat, j: nat): int
    requires h.mate > 0 && depth > 0 && j < |n.children|
  {
    -Negamax(h, n.children[j], depth - 1)
  }

  lemma {:induction false} MaxChildBounds(h: Hyper, n: Node, depth: nat, i: nat, best: int)
    requires h.mate > 0 && depth > 0 && i <= |n.children|
    ensures forall j | i <= j < |n.children| :: MaxChild(h, n, depth, i, best) >= ChildScore(h, n, depth, j)
    ensures MaxChild(h, n, depth, i, best) == best
            || exists j | i <= j < |n.children| :: MaxChild(h, n, depth, i, best) == ChildScore(h, n, depth, j)
    decreases |n.children| - i
  {
    if i < |n.children| {
      var score := ChildScore(h, n, depth, i);
      var best' := if score > best then score else best;
      MaxChildBounds(h, n, depth, i + 1, best');
    }
  }

  /** For a game in progress searched to depth > 0, negamax is at least every
      negated child score and equals one of them, or is `i64::MIN` when no
      move is available. */
  lemma NegamaxIsMax(h: Hyper, n: Node, depth: nat)
    requires h.mate > 0 && depth > 0 && !n.gameOver
    ensures Negamax(h, n, depth) >= I64_MIN
    ensures forall i | 0 <= i < |n.children| :: Negamax(h, n, depth) >= ChildScore(h, n, depth, i)
    ensures |n.children| == 0 ==> Negamax(h, n, depth) == I64_MIN
    ensures Negamax(h, n, depth) == I64_MIN
            || exists i | 0 <= i < |n.children| :: Negamax(h, n, depth) == ChildScore(h, n, depth, i)
  {
    MaxChildBounds(h, n, depth, 0, I64_MIN);
  }

  /** `next_move`: the index of a legal move whose negated child score is
      largest; among equal keys the last one wins, as with `max_by_key`. No
      result when there is no legal move (the engine panics there). The
      depth is at least 1 because the engine subtracts one from an unsigned
      byte. */
  method NextMove(h: Hyper, n: Node, depth: nat) returns (best: Option<nat>)
    requires h.mate > 0 && depth >= 1
    ensures best.None? <==> |n.children| == 0
    ensures best.Some? ==> best.value < |n.children|
    ensures best.Some? ==>
              forall j | 0 <= j < |n.children| :: ChildScore(h, n, depth, j) <= ChildScore(h, n, depth, best.value)
    ensures best.Some? ==>
              forall j | best.value < j < |n.children| :: ChildScore(h, n, depth, j) < ChildScore(h, n, depth, best.value)
    ensures best.Some? && !n.gameOver && ChildScore(h, n, depth, best.value) >= I64_MIN ==>
              ChildScore(h, n, depth, best.value) == Negamax(h, n, depth)
  {
    if |n.children| == 0 {
      return None;
    }
    var b := 0;
    var bestKey := ChildScore(h, n, depth, 0);
    var j := 1;
    while j < |n.children|
      invariant 1 <= j <= |n.children|
      invariant b < j
      invariant bestKey == ChildScore(h, n, depth, b)
      invariant forall k | 0 <= k < j :: ChildScore(h, n, depth, k) <= bestKey
      invariant forall k | b < k < j :: ChildScore(h, n, depth, k) < bestKey
    {
      var key := ChildScore(h, n, depth, j);
      if key >= bestKey {
        b, bestKey := j, key;
      }
      j := j + 1;
    }
    if !n.gameOver {
      NegamaxIsMax(h, n, depth);
    }
    return Some(b);
  }

  // ---------------------------------------------------------------------
  // Properties of the material evaluation

  /** Handing the move to the other side negates the score. */
  lemma EvaluateSwapTurn(h: Hyper, n: Node)
    requires h.mate > 0
    ensures Evaluate(h, n.(turn := n.turn.Other())) == -Evaluate(h, n)
  {
    if n.gameOver {
      TerminalScoreSwapTurn(h.mate, n.turn, n.outcome);
    }
  }

  /** Equal armies score 0 in a game in progress. */
  lemma EqualMaterialScoresZero(h: Hyper, n: Node)
    requires h.mate > 0 && !n.gameOver && n.material.white == n.material.black
    ensures Evaluate(h, n) == 0
  {
  }

  ghost predicate PositiveValues(h: Hyper) {
    h.pawn > 0 && h.knight > 0 && h.bishop > 0 && h.rook > 0 && h.queen > 0 && h.king > 0 && h.mate > 0
  }

  /** No piece has a negative value. */
  ghost predicate NonNegativeValues(h: Hyper) {
    h.pawn >= 0 && h.knight >= 0 && h.bishop >= 0 && h.rook >= 0 && h.queen >= 0 && h.king >= 0
  }

  /** `a` has at least as many pieces of every role as `b`, and more of one
      role whose value is positive. */
  ghost predicate Dominates(h: Hyper, a: ByRole, b: ByRole) {
    && (forall r: Role :: a.Get(r) >= b.Get(r))
    && (exists r: Role :: a.Get(r) > b.Get(r) && GetScore(h, r) > 0)
  }

  lemma {:induction false} SideScoreMonotone(h: Hyper, a: ByRole, b: ByRole)
    requires NonNegativeValues(h) && Dominates(h, a, b)
    ensures SideScore(h, a) > SideScore(h, b)
  {
    var r :| a.Get(r) > b.Get(r) && GetScore(h, r) > 0;
    forall q: Role
      ensures GetScore(h, q) * a.Get(q) >= GetScore(h, q) * b.Get(q)
    {
      MulMonotone(GetScore(h, q), b.Get(q), a.Get(q));
    }
    MulStrict(GetScore(h, r), b.Get(r), a.Get(r));
  }

  lemma MulMonotone(v: int, x: nat, y: nat)
    requires v >= 0 && x <= y
    ensures v * x <= v * y
  {
  }

  lemma MulStrict(v: int, x: nat, y: nat)
    requires v > 0 && x < y
    ensures v * x < v * y
  {
  }

  /** With no negative piece value, the side to move scores above 0 when its
      army dominates the opponent's, and below 0 when the opponent's
      dominates. */
  lemma MaterialAdvantage(h: Hyper, n: Node)
    requires h.mate > 0 && NonNegativeValues(h) && !n.gameOver
    ensures Dominates(h, n.material.Of(n.turn), n.material.Of(n.turn.Other())) ==> Evaluate(h, n) > 0
    ensures Dominates(h, n.material.Of(n.turn.Other()), n.material.Of(n.turn)) ==> Evaluate(h, n) < 0
  {
    var mine, theirs := n.material.Of(n.turn), n.material.Of(n.turn.Other());
    if Dominates(h, mine, theirs) {
      SideScoreMonotone(h, mine, theirs);
    }
    if Dominates(h, theirs, mine) {
      SideScoreMonotone(h, theirs, mine);
    }
  }

  /** The king and seven queens against a lone king: ahead for White to
      move, behind for Black to move. */
  lemma QueensAgainstKing(h: Hyper)
    requires h.mate > 0 && h.queen > 0
    ensures var m := Material(ByRole(0, 0, 0, 0, 0, 1), ByRole(0, 0, 0, 0, 7, 1));
            Evaluate(h, Node(White, false, None, m, [])) > 0 && Evaluate(h, Node(Black, false, None, m, [])) < 0
  {
    var m := Material(ByRole(0, 0, 0, 0, 0, 1), ByRole(0, 0, 0, 0, 7, 1));
    assert SideScore(h, m.white) - SideScore(h, m.black) == 7 * h.queen;
  }
}

=== FILE: engine_minimax.dfy ===
/** Negamax against its textbook reference: minimax, where the root player
    maximises and the opponent minimises a score fixed to the root player's
    point of view. On a game tree where turns alternate, every unfinished
    position has a move, and every evaluation fits in an `i64` without being
    `i64::MIN`, negamax's value is the minimax value signed for the side to
    move. */
module EngineMinimax {
  import opened Chess
  import opened Engine

  const I64_MAX: int := 0x7FFF_FFFF_FFFF_FFFF

  /** Turns alternate, unfinished positions have a move, and evaluations lie
      in [-I64_MAX, I64_MAX] throughout the tree. */
  ghost predicate WellFormed(h: Hyper, n: Node)
    requires h.mate > 0
    decreases n
  {
    && (!n.gameOver ==> |n.children| > 0)
    && -I64_MAX <= Evaluate(h, n) <= I64_MAX
    && forall i | 0 <= i < |n.children| ::
         n.children[i].turn == n.turn.Other() && WellFormed(h, n.children[i])
  }

  /** The minimax value of `n` searched to `depth`, from `root`'s point of
      view. */
  function Minimax(h: Hyper, n: Node, depth: nat, root: Color): int
    requires h.mate > 0
    decreases n, 1
  {
    if depth == 0 || n.gameOver || |n.children| == 0 then IsOpponent(n.turn, root) * Evaluate(h, n)
    else Extreme(h, n, depth, root, 0)
  }

  /** Over the children from `i` on: the largest minimax value when `root`
      moves at `n`, the smallest otherwise. */
  function Extreme(h: Hyper, n: Node, depth: nat, root: Color, i: nat): int
    requires h.mate > 0 && depth > 0 && i < |n.children|
    decreases n, 0, |n.children| - i
  {
    var v := Minimax(h, n.children[i], depth - 1, root);
    if i == |n.children| - 1 then v
    else
      var rest := Extreme(h, n, depth, root, i + 1);
      if n.turn == root then (if v >= rest then v else rest)
      else (if v <= rest then v else rest)
  }

  /** The fold picks one of the child values, and it is the largest (root to
      move) or the smallest (opponent to move). */
  lemma {:induction false} ExtremeIsExtreme(h: Hyper, n: Node, depth: nat, root: Color, i: nat)
    requires h.mate > 0 && depth > 0 && i < |n.children|
    ensures exists j | i <= j < |n.children| ::
              Extreme(h, n, depth, root, i) == Minimax(h, n.children[j], depth - 1, root)
    ensures n.turn == root ==> forall j | i <= j < |n.children| ::
              Extreme(h, n, depth, root, i) >= Minimax(h, n.children[j], depth - 1, root)
    ensures n.turn != root ==> forall j | i <= j < |n.children| ::
              Extreme(h, n, depth, root, i) <= Minimax(h, n.children[j], depth - 1, root)
    decreases |n.children| - i
  {
    var v := Minimax(h, n.children[i], depth - 1, root);
    if i < |n.children| - 1 {
      ExtremeIsExtreme(h, n, depth, root, i + 1);
      var j :| i + 1 <= j < |n.children| &&
               Extreme(h, n, depth, root, i + 1) == Minimax(h, n.children[j], depth - 1, root);
      if Extreme(h, n, depth, root, i) == v {
        assert Extreme(h, n, depth, root, i) == Minimax(h, n.children[i], depth - 1, root);
      } else {
        assert Extreme(h, n, depth, root, i) == Minimax(h, n.children[j], depth - 1, root);
      }
    } else {
      assert Extreme(h, n, depth, root, i) == Minimax(h, n.children[i], depth - 1, root);
    }
  }

  /** Negamax equals the minimax value seen from the side to move, and stays
      within the `i64` range. */
  lemma {:induction false} NegamaxIsMinimax(h: Hyper, n: Node, depth: nat, root: Color)
    requires h.mate > 0 && WellFormed(h, n)
    ensures Negamax(h, n, depth) == IsOpponent(n.turn, root) * Minimax(h, n, depth, root)
    ensures -I64_MAX <= Negamax(h, n, depth) <= I64_MAX
    decreases n
  {
    if depth > 0 && !n.gameOver {
      var sign := IsOpponent(n.turn, root);
      forall j | 0 <= j < |n.children|
        ensures ChildScore(h, n, depth, j) == sign * Minimax(h, n.children[j], depth - 1, root)
        ensures -I64_MAX <= ChildScore(h, n, depth, j) <= I64_MAX
      {
        NegamaxIsMinimax(h, n.children[j], depth - 1, root);
        assert IsOpponent(n.children[j].turn, root) == -sign;
      }
      NegamaxIsMax(h, n, depth);
      ExtremeIsExtreme(h, n, depth, root, 0);
      var r := Negamax(h, n, depth);
      var m := Minimax(h, n, depth, root);
      // Both r and sign * m are an upper bound of the child scores that is
      // attained by one of them, so they coincide.
      var j :| 0 <= j < |n.children| && m == Minimax(h, n.children[j], depth - 1, root);
      assert r >= ChildScore(h, n, depth, 0) > I64_MIN;
      var k :| 0 <= k < |n.children| && r == ChildScore(h, n, depth, k);
      assert sign * m == ChildScore(h, n, depth, j);
      assert sign * m >= ChildScore(h, n, depth, k);
    }
  }
}

=== FILE: pesto.dfy ===
/** The PeSTO tapered evaluation (src/eval.rs). Each piece is scored from a
    middlegame and an endgame piece-square table; a phase counter, clamped to
    24, weighs the two totals; the blend is divided with truncation.
    Squares are numbered as in the board library the engine uses: a1 = 0,
    b1 = 1, …, h8 = 63, so `s / 8` is the rank and `s % 8` the file. */
module Pesto {
  import opened Chess
  import opened Arith
  import opened PestoTables

  const MATE_SCORE: int := 100_000_000

  /** The phase weight at which the middlegame table counts fully. */
  const FULL_PHASE: int := 24

  type Square = s: nat | s < 64

  /** Which of the two table sets a value comes from. */
  datatype Stage = Middlegame | Endgame

  // ---------------------------------------------------------------------
  // Squares

  /** Mirrors a square across the board's horizontal middle. The engine
      writes it `s ^ 56`, which complements the three rank bits and keeps the
      three file bits; `FlipIsXor` shows this arithmetic form is the same. */
  function Flip(s: Square): (r: Square)
    ensures r % 8 == s % 8
    ensures r / 8 == 7 - s / 8
  {
    56 - s + 2 * (s % 8)
  }

  /** `Flip` is the engine's `square ^ 56`. */
  lemma FlipIsXor(s: Square)
    ensures Flip(s) == ((s as bv8) ^ 56) as nat
  {
    SmallAsBits(s);
    XorFiftySix(s as bv8);
  }

  lemma FlipInvolution(s: Square)
    ensures Flip(Flip(s)) == s
  {
  }

  lemma FlipRankFile(rank: nat, file: nat)
    requires rank < 8 && file < 8
    ensures Flip(8 * rank + file) == 8 * (7 - rank) + file
  {
  }

  // ---------------------------------------------------------------------
  // Phase

  /** How much a piece of this role adds to the game-phase counter. The
      starting army adds 4 knights + 4 bishops + 4·2 rooks + 2·4 queens = 24. */
  function PhaseIncrease(role: Role): (n: nat)
    ensures n <= 4
    ensures n == 0 <==> role == Pawn || role == King
  {
    match role
    case Pawn => 0
    case Knight => 1
    case Bishop => 1
    case Rook => 2
    case Queen => 4
    case King => 0
  }

  /** The two blend weights from the game-phase counter: the middlegame
      weight is the counter clamped to 24 and the endgame weight is the rest. */
  function PhaseWeights(gamePhase: int): (w: (int, int))
    requires gamePhase >= 0
    ensures 0 <= w.0 <= FULL_PHASE && 0 <= w.1 <= FULL_PHASE
    ensures w.0 + w.1 == FULL_PHASE
    ensures w.0 == FULL_PHASE <==> gamePhase >= FULL_PHASE
    ensures w.1 == FULL_PHASE <==> gamePhase == 0
    ensures gamePhase <= FULL_PHASE ==> w.0 == gamePhase
  {
    var mgPhase := Min(gamePhase, FULL_PHASE);
    (mgPhase, FULL_PHASE - mgPhase)
  }

  // ---------------------------------------------------------------------
  // Tables

  /** The constant table for a role's row (`match piece_idx`). */
  function BaseTable(stage: Stage, p: nat): (t: seq<int>)
    requires p < 6
    ensures |t| == 64
  {
    match stage
    case Middlegame =>
      [MG_PAWN_TABLE, MG_KNIGHT_TABLE, MG_BISHOP_TABLE, MG_ROOK_TABLE, MG_QUEEN_TABLE, MG_KING_TABLE][p]
    case Endgame =>
      [EG_PAWN_TABLE, EG_KNIGHT_TABLE, EG_BISHOP_TABLE, EG_ROOK_TABLE, EG_QUEEN_TABLE, EG_KING_TABLE][p]
  }

  function PieceValues(stage: Stage): (v: seq<int>)
    ensures |v| == 6
  {
    match stage
    case Middlegame => PIECE_VALUES_MG
    case Endgame => PIECE_VALUES_EG
  }

  /** The value the built table holds for a piece of colour `c` and role
      `role` on square `s`: White reads the constant table at `s`, Black at
      the mirrored square. */
  function TableEntry(stage: Stage, c: Color, role: Role, s: Square): int {
    var at := if c == White then s else Flip(s);
    BaseTable(stage, role.Index())[at] + PieceValues(stage)[role.Index()]
  }

  /** A piece is valued as the same piece of the other colour on the
      flipped square. */
  lemma TableEntryMirror(stage: Stage, c: Color, role: Role, s: Square)
    ensures TableEntry(stage, c, role, s) == TableEntry(stage, c.Other(), role, Flip(s))
  {
    FlipInvolution(s);
  }

  /** The shape of `[[[i64; 64]; 6]; 2]`, indexed colour, row, square. */
  ghost predicate TableShape(m: seq<seq<seq<int>>>) {
    && |m| == 2
    && (forall c | 0 <= c < 2 :: |m[c]| == 6)
    && (forall c, p | 0 <= c < 2 && 0 <= p < 6 :: |m[c][p]| == 64)
  }

  function Store(m: seq<seq<seq<int>>>, c: nat, p: nat, s: nat, v: int): (m': seq<seq<seq<int>>>)
    requires TableShape(m) && c < 2 && p < 6 && s < 64
    ensures TableShape(m')
    ensures m'[c][p][s] == v
    ensures forall c', p', s' | 0 <= c' < 2 && 0 <= p' < 6 && 0 <= s' < 64 && (c', p', s') != (c, p, s) ::
              m'[c'][p'][s'] == m[c'][p'][s']
  {
    m[c := m[c][p := m[c][p][s := v]]]
  }

  lemma FlipInjective(s: Square, t: Square)
    requires s != t
    ensures Flip(s) != Flip(t)
  {
    FlipInvolution(s);
    FlipInvolution(t);
  }

  /** The entry a row's loop writes for square `s`: the constant table plus
      the role's material value. */
  function RowValue(stage: Stage, p: nat, s: nat): int
    requires p < 6 && s < 64
  {
    BaseTable(stage, p)[s] + PieceValues(stage)[p]
  }

  /** One pass of the inner loop over the 64 squares for row `p`: the White
      entry is written at each square and the Black entry at its flip. */
  method FillRow(m0: seq<seq<seq<int>>>, stage: Stage, p: nat) returns (m: seq<seq<seq<int>>>)
    requires TableShape(m0) && p < 6
    ensures TableShape(m)
    ensures forall s | 0 <= s < 64 :: m[1][p][s] == RowValue(stage, p, s)
    ensures forall s | 0 <= s < 64 :: m[0][p][Flip(s)] == RowValue(stage, p, s)
    ensures forall c, p', s | 0 <= c < 2 && 0 <= p' < 6 && p' != p && 0 <= s < 64 ::
              m[c][p'][s] == m0[c][p'][s]
  {
    m := m0;
    var s := 0;
    while s < 64
      invariant 0 <= s <= 64
      invariant TableShape(m)
      invariant forall s' | 0 <= s' < s :: m[1][p][s'] == RowValue(stage, p, s')
      invariant forall s' | 0 <= s' < s :: m[0][p][Flip(s')] == RowValue(stage, p, s')
      invariant forall c, p', s' | 0 <= c < 2 && 0 <= p' < 6 && p' != p && 0 <= s' < 64 ::
                  m[c][p'][s'] == m0[c][p'][s']
    {
      var v := RowValue(stage, p, s);
      m := Store(m, 1, p, s, v);
      forall s' | 0 <= s' < s
        ensures Flip(s') != Flip(s)
      {
        FlipInjective(s', s);
      }
      m := Store(m, 0, p, Flip(s), v);
      s := s + 1;
    }
  }

  /** Builds one table set the way the engine initialises it lazily: for
      every row and square, the White entry is written at the square and the
      Black entry at the flipped square. Because flipping is a bijection of
      the 64 squares, every Black entry ends up written. */
  method BuildTable(stage: Stage) returns (m: seq<seq<seq<int>>>)
    ensures TableShape(m)
    ensures forall p, s | 0 <= p < 6 && 0 <= s < 64 ::
              m[White.Index()][p][s] == BaseTable(stage, p)[s] + PieceValues(stage)[p]
    ensures forall p, s | 0 <= p < 6 && 0 <= s < 64 ::
              m[Black.Index()][p][Flip(s)] == m[White.Index()][p][s]
    ensures forall c: Color, role: Role, s: Square ::
              m[c.Index()][role.Index()][s] == TableEntry(stage, c, role, s)
  {
    m := seq(2, _ => seq(6, _ => seq(64, _ => 0)));
    var p := 0;
    while p < 6
      invariant 0 <= p <= 6
      invariant TableShape(m)
      invariant forall p', s | 0 <= p' < p && 0 <= s < 64 :: m[1][p'][s] == RowValue(stage, p', s)
      invariant forall p', s | 0 <= p' < p && 0 <= s < 64 :: m[0][p'][Flip(s)] == RowValue(stage, p', s)
    {
      m := FillRow(m, stage, p);
      p := p + 1;
    }
    forall c: Color, role: Role, s: Square
      ensures m[c.Index()][role.Index()][s] == TableEntry(stage, c, role, s)
    {
      if c == Black {
        FlipInvolution(s);
        assert m[0][role.Index()][Flip(Flip(s))] == RowValue(stage, role.Index(), Flip(s));
      }
    }
  }

  // ---------------------------------------------------------------------
  // Evaluation

  /** A position as the evaluator sees it: what stands on each of the 64
      squares, whose turn it is, and the game-over verdict with its outcome
      as the board library reports them. */
  datatype Position = Position(board: seq<Option<Piece>>, turn: Color, gameOver: bool, outcome: Option<Outcome>)

  /** A pair of per-colour running totals (`[i64; 2]` indexed by colour). */
  datatype Totals = Totals(black: int, white: int) {

    function Of(c: Color): int {
      if c == White then white else black
    }

    function Add(c: Color, v: int): (t: Totals)
      ensures t.Of(c) == Of(c) + v
      ensures t.Of(c.Other()) == Of(c.Other())
    {
      if c == White then Totals(black, white + v) else Totals(black + v, white)
    }
  }

  /** The accumulators of the evaluation loop. */
  datatype Tally = Tally(mg: Totals, eg: Totals, gamePhase: int) {

    function At(stage: Stage): Totals {
      if stage == Middlegame then mg else eg
    }
  }

  /** The evaluation loop over the occupied squares below `n`, in square
      order: each piece adds its table entries to its colour's totals and its
      increment to the phase counter. */
  function Accumulate(board: seq<Option<Piece>>, n: nat): (t: Tally)
    requires |board| == 64 && n <= 64
    ensures 0 <= t.gamePhase <= 4 * n
  {
    if n == 0 then Tally(Totals(0, 0), Totals(0, 0), 0)
    else
      var t := Accumulate(board, n - 1);
      match board[n - 1]
      case None => t
      case Some(piece) =>
        Tally(t.mg.Add(piece.color, TableEntry(Middlegame, piece.color, piece.role, n - 1)),
              t.eg.Add(piece.color, TableEntry(Endgame, piece.color, piece.role, n - 1)),
              t.gamePhase + PhaseIncrease(piece.role))
  }

  /** Own total minus the opponent's for one stage. */
  function StageScore(p: Position, stage: Stage): int
    requires |p.board| == 64
  {
    var totals := Accumulate(p.board, 64).At(stage);
    totals.Of(p.turn) - totals.Of(p.turn.Other())
  }

  /** The tapered blend `(mg·mgPhase + eg·egPhase) / 24` with truncating
      division: it lies between the two stage scores, is the middlegame score
      once the phase reaches 24, and the endgame score at phase 0. */
  function Blend(mgScore: int, egScore: int, gamePhase: int): (r: int)
    requires gamePhase >= 0
    ensures Min(mgScore, egScore) <= r <= Max(mgScore, egScore)
    ensures gamePhase >= FULL_PHASE ==> r == mgScore
    ensures gamePhase == 0 ==> r == egScore
  {
    var (mgPhase, egPhase) := PhaseWeights(gamePhase);
    BlendBounds(mgScore, egScore, mgPhase, egPhase);
    TDiv(mgScore * mgPhase + egScore * egPhase, FULL_PHASE)
  }

  lemma BlendBounds(mg: int, eg: int, a: int, b: int)
    requires 0 <= a && 0 <= b && a + b == FULL_PHASE
    ensures Min(mg, eg) <= TDiv(mg * a + eg * b, FULL_PHASE) <= Max(mg, eg)
    ensures b == 0 ==> TDiv(mg * a + eg * b, FULL_PHASE) == mg
    ensures a == 0 ==> TDiv(mg * a + eg * b, FULL_PHASE) == eg
  {
    var lo, hi := Min(mg, eg), Max(mg, eg);
    var sum := mg * a + eg * b;
    WeightedBetween(lo, mg, eg, hi, a, b);
    TDivMonotone(lo * FULL_PHASE, sum, FULL_PHASE);
    TDivMonotone(sum, hi * FULL_PHASE, FULL_PHASE);
    TDivExact(lo, FULL_PHASE);
    TDivExact(hi, FULL_PHASE);
    if b == 0 {
      assert sum == mg * FULL_PHASE;
      TDivExact(mg, FULL_PHASE);
    }
    if a == 0 {
      assert sum == eg * FULL_PHASE;
      TDivExact(eg, FULL_PHASE);
    }
  }

  /** A weighted sum with weights adding to 24 lies between 24 times the
      smaller and 24 times the larger value. */
  lemma WeightedBetween(lo: int, x: int, y: int, hi: int, a: int, b: int)
    requires lo <= x <= hi && lo <= y <= hi
    requires 0 <= a && 0 <= b && a + b == FULL_PHASE
    ensures lo * FULL_PHASE <= x * a + y * b <= hi * FULL_PHASE
  {
    MulLe(lo, x, a);
    MulLe(lo, y, b);
    MulLe(x, hi, a);
    MulLe(y, hi, b);
    assert lo * a + lo * b == lo * FULL_PHASE;
    assert hi * a + hi * b == hi * FULL_PHASE;
  }

  lemma MulLe(x: int, y: int, k: int)
    requires x <= y && k >= 0
    ensures x * k <= y * k
  {
  }

  /** `evaluate`: the score of a position from the side to move's point of
      view. A finished game scores ±MATE_SCORE or 0; otherwise the tapered
      blend of the two stage scores. */
  function Evaluate(p: Position): (r: int)
    requires |p.board| == 64
    ensures p.gameOver ==> r == TerminalScore(MATE_SCORE, p.turn, p.outcome)
    ensures !p.gameOver ==>
              Min(StageScore(p, Middlegame), StageScore(p, Endgame)) <= r <=
              Max(StageScore(p, Middlegame), StageScore(p, Endgame))
    ensures !p.gameOver && Accumulate(p.board, 64).gamePhase >= FULL_PHASE ==>
              r == StageScore(p, Middlegame)
    ensures !p.gameOver && Accumulate(p.board, 64).gamePhase == 0 ==>
              r == StageScore(p, Endgame)
  {
    if p.gameOver then
      TerminalScore(MATE_SCORE, p.turn, p.outcome)
    else
      Blend(StageScore(p, Middlegame), StageScore(p, Endgame), Accumulate(p.board, 64).gamePhase)
  }

  /** The tables are read with a1 = 0, so White reads the printed rows
      bottom-up from the first row: a middlegame White pawn on e2 (square 12)
      is worth more than one on e4 (square 28), and more than one on e7
      (square 52). Black reads at the flipped square, so a Black pawn on its
      home square e7 is worth what White's is on e2. */
  lemma WhitePawnTableOrientation()
    ensures TableEntry(Middlegame, White, Pawn, 12) == 150
    ensures TableEntry(Middlegame, White, Pawn, 28) == 105
    ensures TableEntry(Middlegame, White, Pawn, 52) == 67
    ensures TableEntry(Middlegame, Black, Pawn, 52) == 150
  {
    assert BaseTable(Middlegame, 0) == MG_PAWN_TABLE;
    assert MG_PAWN_TABLE[12] == 68 && MG_PAWN_TABLE[28] == 23 && MG_PAWN_TABLE[52] == -15;
  }
}

=== FILE: pesto_symmetry.dfy ===
/** Colour symmetry of the PeSTO evaluation: swapping the side to move
    negates the score, and a board whose Black army is the mirror image of
    its White army scores 0 (the starting position among them). */
module PestoSymmetry {
  import opened Chess
  import opened Arith
  import opened Pesto

  // ---------------------------------------------------------------------
  // Sums over the 64 squares

  function Sum(xs: seq<int>): int {
    if |xs| == 0 then 0 else Sum(xs[..|xs| - 1]) + xs[|xs| - 1]
  }

  lemma {:induction false} SumConcat(a: seq<int>, b: seq<int>)
    ensures Sum(a + b) == Sum(a) + Sum(b)
    decreases |b|
  {
    if |b| == 0 {
      assert a + b == a;
    } else {
      var b' := b[..|b| - 1];
      assert (a + b)[..|a + b| - 1] == a + b';
      SumConcat(a, b');
    }
  }

  lemma SumSplitAt(xs: seq<int>, i: nat, j: nat, k: nat)
    requires i <= j <= k <= |xs|
    ensures Sum(xs[i..k]) == Sum(xs[i..j]) + Sum(xs[j..k])
  {
    assert xs[i..k] == xs[i..j] + xs[j..k];
    SumConcat(xs[i..j], xs[j..k]);
  }

  /** The rank-by-rank decomposition of a sum over the board. */
  function RankSum(xs: seq<int>, rank: nat): int
    requires |xs| == 64 && rank < 8
  {
    Sum(xs[8 * rank..8 * rank + 8])
  }

  lemma SumByRanks(xs: seq<int>)
    requires |xs| == 64
    ensures Sum(xs) == RankSum(xs, 0) + RankSum(xs, 1) + RankSum(xs, 2) + RankSum(xs, 3)
                     + RankSum(xs, 4) + RankSum(xs, 5) + RankSum(xs, 6) + RankSum(xs, 7)
  {
    assert xs[0..64] == xs;
    SumSplitAt(xs, 0, 8, 64);
    SumSplitAt(xs, 8, 16, 64);
    SumSplitAt(xs, 16, 24, 64);
    SumSplitAt(xs, 24, 32, 64);
    SumSplitAt(xs, 32, 40, 64);
    SumSplitAt(xs, 40, 48, 64);
    SumSplitAt(xs, 48, 56, 64);
  }

  /** The values of a board-indexed sequence read at the flipped squares. */
  function FlipSeq(xs: seq<int>): (ys: seq<int>)
    requires |xs| == 64
    ensures |ys| == 64
  {
    seq(64, i requires 0 <= i < 64 => xs[Flip(i)])
  }

  lemma FlipSeqRank(xs: seq<int>, rank: nat)
    requires |xs| == 64 && rank < 8
    ensures RankSum(FlipSeq(xs), rank) == RankSum(xs, 7 - rank)
  {
    var lo, mirror := 8 * rank, 8 * (7 - rank);
    var a, b := FlipSeq(xs)[lo..lo + 8], xs[mirror..mirror + 8];
    forall f | 0 <= f < 8
      ensures a[f] == b[f]
    {
      FlipRankFile(rank, f);
    }
    assert a == b;
  }

  /** Flipping permutes the squares, so it leaves a board sum unchanged. */
  lemma SumFlip(xs: seq<int>)
    requires |xs| == 64
    ensures Sum(FlipSeq(xs)) == Sum(xs)
  {
    SumByRanks(xs);
    SumByRanks(FlipSeq(xs));
    FlipSeqRank(xs, 0);
    FlipSeqRank(xs, 1);
    FlipSeqRank(xs, 2);
    FlipSeqRank(xs, 3);
    FlipSeqRank(xs, 4);
    FlipSeqRank(xs, 5);
    FlipSeqRank(xs, 6);
    FlipSeqRank(xs, 7);
  }

  // ---------------------------------------------------------------------
  // The evaluation loop as per-colour sums

  /** What each square contributes to colour `c`'s total for one stage. */
  function Contributions(board: seq<Option<Piece>>, c: Color, stage: Stage): (xs: seq<int>)
    requires |board| == 64
    ensures |xs| == 64
  {
    seq(64, s requires 0 <= s < 64 =>
      if board[s].Some? && board[s].value.color == c then TableEntry(stage, c, board[s].value.role, s) else 0)
  }

  lemma {:induction false} AccumulateIsSum(board: seq<Option<Piece>>, n: nat, c: Color, stage: Stage)
    requires |board| == 64 && n <= 64
    ensures Accumulate(board, n).At(stage).Of(c) == Sum(Contributions(board, c, stage)[..n])
  {
    if n > 0 {
      AccumulateIsSum(board, n - 1, c, stage);
      var xs := Contributions(board, c, stage);
      assert xs[..n][..n - 1] == xs[..n - 1];
      assert Sum(xs[..n]) == Sum(xs[..n - 1]) + xs[n - 1];
      var before := Accumulate(board, n - 1).At(stage).Of(c);
      assert Accumulate(board, n).At(stage).Of(c) == before + xs[n - 1];
    }
  }

  /** What each square adds to the game-phase counter. */
  function PhaseContributions(board: seq<Option<Piece>>): (xs: seq<int>)
    requires |board| == 64
    ensures |xs| == 64
  {
    seq(64, s requires 0 <= s < 64 => if board[s].Some? then PhaseIncrease(board[s].value.role) else 0)
  }

  /** The phase counter is the sum of the phase increments of the pieces
      on the squares scanned so far, of either colour. */
  lemma {:induction false} AccumulatePhaseIsSum(board: seq<Option<Piece>>, n: nat)
    requires |board| == 64 && n <= 64
    ensures Accumulate(board, n).gamePhase == Sum(PhaseContributions(board)[..n])
  {
    if n > 0 {
      AccumulatePhaseIsSum(board, n - 1);
      var xs := PhaseContributions(board);
      assert xs[..n][..n - 1] == xs[..n - 1];
      assert Sum(xs[..n]) == Sum(xs[..n - 1]) + xs[n - 1];
      assert Accumulate(board, n).gamePhase == Accumulate(board, n - 1).gamePhase + xs[n - 1];
    }
  }

  // ---------------------------------------------------------------------
  // Side to move

  /** For a game in progress, handing the move to the other side negates the
      score: both stage scores change sign, the phase is unchanged, and
      truncating division is odd. */
  lemma EvaluateSwapTurn(p: Position)
    requires |p.board| == 64 && !p.gameOver
    ensures Evaluate(p.(turn := p.turn.Other())) == -Evaluate(p)
  {
    var q := p.(turn := p.turn.Other());
    assert q.board == p.board;
    var mg, eg := StageScore(p, Middlegame), StageScore(p, Endgame);
    assert StageScore(q, Middlegame) == -mg;
    assert StageScore(q, Endgame) == -eg;
    BlendNegate(mg, eg, Accumulate(p.board, 64).gamePhase);
  }

  /** Negating both stage scores negates the blend. */
  lemma BlendNegate(mg: int, eg: int, gamePhase: int)
    requires gamePhase >= 0
    ensures Blend(-mg, -eg, gamePhase) == -Blend(mg, eg, gamePhase)
  {
    var (a, b) := PhaseWeights(gamePhase);
    assert (-mg) * a + (-eg) * b == -(mg * a + eg * b);
    TDivNeg(mg * a + eg * b, FULL_PHASE);
  }

  /** The decided-game score also changes sign with the side to move. */
  lemma EvaluateSwapTurnFinished(p: Position)
    requires |p.board| == 64 && p.gameOver
    ensures Evaluate(p.(turn := p.turn.Other())) == -Evaluate(p)
  {
    TerminalScoreSwapTurn(MATE_SCORE, p.turn, p.outcome);
  }

  // ---------------------------------------------------------------------
  // Mirrored armies

  /** White has a piece of role `r` on `s` exactly when Black has one on the
      flipped square. */
  ghost predicate Mirrored(board: seq<Option<Piece>>)
    requires |board| == 64
  {
    forall s: Square, r: Role ::
      board[s] == Some(Piece(White, r)) <==> board[Flip(s)] == Some(Piece(Black, r))
  }

  lemma MirroredContributions(board: seq<Option<Piece>>, stage: Stage)
    requires |board| == 64 && Mirrored(board)
    ensures Contributions(board, Black, stage) == FlipSeq(Contributions(board, White, stage))
  {
    var bl, wh := Contributions(board, Black, stage), Contributions(board, White, stage);
    forall t | 0 <= t < 64
      ensures bl[t] == FlipSeq(wh)[t]
    {
      FlipInvolution(t);
      var s := Flip(t);
      if board[t].Some? && board[t].value.color == Black {
        assert board[s] == Some(Piece(White, board[t].value.role));
      } else if board[s].Some? && board[s].value.color == White {
        assert board[Flip(s)] == Some(Piece(Black, board[s].value.role));
      }
    }
  }

  lemma MirroredTotalsEqual(board: seq<Option<Piece>>, stage: Stage)
    requires |board| == 64 && Mirrored(board)
    ensures Accumulate(board, 64).At(stage).Of(White) == Accumulate(board, 64).At(stage).Of(Black)
  {
    var wh, bl := Contributions(board, White, stage), Contributions(board, Black, stage);
    AccumulateTotal(board, White, stage);
    AccumulateTotal(board, Black, stage);
    MirroredContributions(board, stage);
    SumFlip(wh);
  }

  lemma AccumulateTotal(board: seq<Option<Piece>>, c: Color, stage: Stage)
    requires |board| == 64
    ensures Accumulate(board, 64).At(stage).Of(c) == Sum(Contributions(board, c, stage))
  {
    var xs := Contributions(board, c, stage);
    AccumulateIsSum(board, 64, c, stage);
    assert xs[..64] == xs;
  }

  /** A game in progress on a colour-mirrored board scores 0, whoever moves. */
  lemma EvaluateMirroredIsZero(p: Position)
    requires |p.board| == 64 && !p.gameOver && Mirrored(p.board)
    ensures Evaluate(p) == 0
  {
    MirroredTotalsEqual(p.board, Middlegame);
    MirroredTotalsEqual(p.board, Endgame);
  }

  // ---------------------------------------------------------------------
  // The starting position

  function BackRank(file: nat): Role
    requires file < 8
  {
    [Rook, Knight, Bishop, Queen, King, Bishop, Knight, Rook][file]
  }

  function StartSquare(rank: nat, file: nat): Option<Piece>
    requires rank < 8 && file < 8
  {
    if rank == 0 then Some(Piece(White, BackRank(file)))
    else if rank == 1 then Some(Piece(White, Pawn))
    else if rank == 6 then Some(Piece(Black, Pawn))
    else if rank == 7 then Some(Piece(Black, BackRank(file)))
    else None
  }

  /** The standard initial arrangement, White on ranks 1 and 2. */
  function StartBoard(): (b: seq<Option<Piece>>)
    ensures |b| == 64
  {
    seq(64, s requires 0 <= s < 64 => StartSquare(s / 8, s % 8))
  }

  lemma StartBoardMirrored()
    ensures Mirrored(StartBoard())
  {
    var b := StartBoard();
    forall s: Square, r: Role
      ensures b[s] == Some(Piece(White, r)) <==> b[Flip(s)] == Some(Piece(Black, r))
    {
      FlipRankFile(s / 8, s % 8);
    }
  }

  /** The default position, White to move, scores 0. */
  lemma StartPositionScoresZero()
    ensures Evaluate(Position(StartBoard(), White, false, None)) == 0
  {
    StartBoardMirrored();
    EvaluateMirroredIsZero(Position(StartBoard(), White, false, None));
  }

  lemma SumSnoc(xs: seq<int>, k: nat)
    requires 0 < k <= |xs|
    ensures Sum(xs[..k]) == Sum(xs[..k - 1]) + xs[k - 1]
  {
    assert xs[..k][..k - 1] == xs[..k - 1];
  }

  lemma SumEight(xs: seq<int>)
    requires |xs| == 8
    ensures Sum(xs) == xs[0] + xs[1] + xs[2] + xs[3] + xs[4] + xs[5] + xs[6] + xs[7]
  {
    assert xs[..8] == xs;
    assert xs[..0] == [];
    SumSnoc(xs, 8);
    SumSnoc(xs, 7);
    SumSnoc(xs, 6);
    SumSnoc(xs, 5);
    SumSnoc(xs, 4);
    SumSnoc(xs, 3);
    SumSnoc(xs, 2);
    SumSnoc(xs, 1);
  }

  lemma RankFileOf(rank: nat, f: nat)
    requires rank < 8 && f < 8
    ensures (8 * rank + f) / 8 == rank && (8 * rank + f) % 8 == f
  {
  }

  /** The phase increments of one rank of the starting position: 12 on each
      back rank (rooks 2, knights and bishops 1, queen 4, king 0), 0 on the
      pawn ranks and the empty ones. */
  lemma StartRankPhase(rank: nat)
    requires rank < 8
    ensures RankSum(PhaseContributions(StartBoard()), rank) == if rank == 0 || rank == 7 then 12 else 0
  {
    var xs := PhaseContributions(StartBoard());
    var r := xs[8 * rank..8 * rank + 8];
    forall f | 0 <= f < 8
      ensures r[f] == if rank == 0 || rank == 7 then PhaseIncrease(BackRank(f)) else 0
    {
      RankFileOf(rank, f);
      assert r[f] == xs[8 * rank + f];
    }
    SumEight(r);
  }

  /** The starting position is a full middlegame: its phase counter is 24,
      so its score is the middlegame score alone. */
  lemma StartPhase()
    ensures Accumulate(StartBoard(), 64).gamePhase == FULL_PHASE
  {
    var xs := PhaseContributions(StartBoard());
    AccumulatePhaseIsSum(StartBoard(), 64);
    assert xs[..64] == xs;
    SumByRanks(xs);
    StartRankPhase(0);
    StartRankPhase(1);
    StartRankPhase(2);
    StartRankPhase(3);
    StartRankPhase(4);
    StartRankPhase(5);
    StartRankPhase(6);
    StartRankPhase(7);
  }
}

=== FILE: pesto_tables.dfy ===
/** The constant data of the PeSTO evaluation: material values and the
    twelve 64-entry piece-square tables, one per role and game stage. */
module PestoTables {

  // Material values by table row (pawn, knight, bishop, rook, queen, king).
  const PIECE_VALUES_MG: seq<int> := [82, 337, 365, 477, 1025, 0]
  const PIECE_VALUES_EG: seq<int> := [94, 281, 297, 512, 936, 0]

  // Piece-square tables, eight entries per line, index 0 first.
  const MG_PAWN_TABLE: seq<int> :=
      [   0,    0,    0,    0,    0,    0,    0,    0]
    + [  98,  134,   61,   95,   68,  126,   34,  -11]
    + [  -6,    7,   26,   31,   65,   56,   25,  -20]
    + [ -14,   13,    6,   21,   23,   12,   17,  -23]
    + [ -27,   -2,   -5,   12,   17,    6,   10,  -25]
    + [ -26,   -4,   -4,  -10,    3,    3,   33,  -12]
    + [ -35,   -1,  -20,  -23,  -15,   24,   38,  -22]
    + [   0,    0,    0,    0,    0,    0,    0,    0]

  const EG_PAWN_TABLE: seq<int> :=
      [   0,    0,    0,    0,    0,    0,    0,    0]
    + [ 178,  173,  158,  134,  147,  132,  165,  187]
    + [  94,  100,   85,   67,   56,   53,   82,   84]
    + [  32,   24,   13,    5,   -2,    4,   17,   17]
    + [  13,    9,   -3,   -7,   -7,   -8,    3,   -1]
    + [   4,    7,   -6,    1,    0,   -5,   -1,   -8]
    + [  13,    8,    8,   10,   13,    0,    2,   -7]
    + [   0,    0,    0,    0,    0,    0,    0,    0]

  const MG_KNIGHT_TABLE: seq<int> :=
      [-167,  -89,  -34,  -49,   61,  -97,  -15, -107]
    + [ -73,  -41,   72,   36,   23,   62,    7,  -17]
    + [ -47,   60,   37,   65,   84,  129,   73,   44]
    + [  -9,   17,   19,   53,   37,   69,   18,   22]
    + [ -13,    4,   16,   13,   28,   19,   21,   -8]
    + [ -23,   -9,   12,   10,   19,   17,   25,  -16]
    + [ -29,  -53,  -12,   -3,   -1,   18,  -14,  -19]
    + [-105,  -21,  -58,  -33,  -17,  -28,  -19,  -23]

  const EG_KNIGHT_TABLE: seq<int> :=
      [ -58,  -38,  -13,  -28,  -31,  -27,  -63,  -99]
    + [ -25,   -8,  -25,   -2,   -9,  -25,  -24,  -52]
    + [ -24,  -20,   10,    9,   -1,   -9,  -19,  -41]
    + [ -17,    3,   22,   22,   22,   11,    8,  -18]
    + [ -18,   -6,   16,   25,   16,   17,    4,  -18]
    + [ -23,   -3,   -1,   15,   10,   -3,  -20,  -22]
    + [ -42,  -20,  -10,   -5,   -2,  -20,  -23,  -44]
    + [ -29,  -51,  -23,  -15,  -22,  -18,  -50,  -64]

  const MG_BISHOP_TABLE: seq<int> :=
      [ -29,    4,  -82,  -37,  -25,  -42,    7,   -8]
    + [ -26,   16,  -18,  -13,   30,   59,   18,  -47]
    + [ -16,   37,   43,   40,   35,   50,   37,   -2]
    + [  -4,    5,   19,   50,   37,   37,    7,   -2]
    + [  -6,   13,   13,   26,   34,   12,   10,    4]
    + [   0,   15,   15,   15,   14,   27,   18,   10]
    + [   4,   15,   16,    0,    7,   21,   33,    1]
    + [ -33,   -3,  -14,  -21,  -13,  -12,  -39,  -21]

  const EG_BISHOP_TABLE: seq<int> :=
      [ -14,  -21,  -11,   -8,   -7,   -9,  -17,  -24]
    + [  -8,   -4,    7,  -12,   -3,  -13,   -4,  -14]
    + [   2,   -8,    0,   -1,   -2,    6,    0,    4]
    + [  -3,    9,   12,    9,   14,   10,    3,    2]
    + [  -6,    3,   13,   19,    7,   10,   -3,   -9]
    + [ -12,   -3,    8,   10,   13,    3,   -7,  -15]
    + [ -14,  -18,   -7,   -1,    4,   -9,  -15,  -27]
    + [ -23,   -9,  -23,   -5,   -9,  -16,   -5,  -17]

  const MG_ROOK_TABLE: seq<int> :=
      [  32,   42,   32,   51,   63,    9,   31,   43]
    + [  27,   32,   58,   62,   80,   67,   26,   44]
    + [  -5,   19,   26,   36,   17,   45,   61,   16]
    + [ -24,  -11,    7,   26,   24,   35,   -8,  -20]
    + [ -36,  -26,  -12,   -1,    9,   -7,    6,  -23]
    + [ -45,  -25,  -16,  -17,    3,    0,   -5,  -33]
    + [ -44,  -16,  -20,   -9,   -1,   11,   -6,  -71]
    + [ -19,  -13,    1,   17,   16,    7,  -37,  -26]

  const EG_ROOK_TABLE: seq<int> :=
      [  13,   10,   18,   15,   12,   12,    8,    5]
    + [  11,   13,   13,   11,   -3,    3,    8,    3]
    + [   7,    7,    7,    5,    4,   -3,   -5,   -3]
    + [   4,    3,   13,    1,    2,    1,   -1,    2]
    + [   3,    5,    8,    4,   -5,   -6,   -8,  -11]
    + [  -4,    0,   -5,   -1,   -7,  -12,   -8,  -16]
    + [  -6,   -6,    0,    2,   -9,   -9,  -11,   -3]
    + [  -9,    2,    3,   -1,   -5,  -13,    4,  -20]

  const MG_QUEEN_TABLE: seq<int> :=
      [ -28,    0,   29,   12,   59,   44,   43,   45]
    + [ -24,  -39,   -5,    1,  -16,   57,   28,   54]
    + [ -13,  -17,    7,    8,   29,   56,   47,   57]
    + [ -27,  -27,  -16,  -16,   -1,   17,   -2,    1]
    + [  -9,  -26,   -9,  -10,   -2,   -4,    3,   -3]
    + [ -14,    2,  -11,   -2,   -5,    2,   14,    5]
    + [ -35,   -8,   11,    2,    8,   15,   -3,    1]
    + [  -1,  -18,   -9,   10,  -15,  -25,  -31,  -50]

  const EG_QUEEN_TABLE: seq<int> :=
      [  -9,   22,   22,   27,   27,   19,   10,   20]
    + [ -17,   20,   32,   41,   58,   25,   30,    0]
    + [ -20,    6,    9,   49,   47,   35,   19,    9]
    + [   3,   22,   24,   45,   57,   40,   57,   36]
    + [ -18,   28,   19,   47,   31,   34,   39,   23]
    + [ -16,  -27,   15,    6,    9,   17,   10,    5]
    + [ -22,  -23,  -30,  -16,  -16,  -23,  -36,  -32]
    + [ -33,  -28,  -22,  -43,   -5,  -32,  -20,  -41]

  const MG_KING_TABLE: seq<int> :=
      [ -65,   23,   16,  -15,  -56,  -34,    2,   13]
    + [  29,   -1,  -20,   -7,   -8,   -4,  -38,  -29]
    + [  -9,   24,    2,  -16,  -20,    6,   22,  -22]
    + [ -17,  -20,  -12,  -27,  -30,  -25,  -14,  -36]
    + [ -49,   -1,  -27,  -39,  -46,  -44,  -33,  -51]
    + [ -14,  -14,  -22,  -46,  -44,  -30,  -15,  -27]
    + [   1,    7,   -8,  -64,  -43,  -16,    9,    8]
    + [ -15,   36,   12,  -54,    8,  -28,   24,   14]

  const EG_KING_TABLE: seq<int> :=
      [ -74,  -35,  -18,  -18,  -11,   15,    4,  -17]
    + [ -12,   17,   14,   17,   17,   38,   23,   11]
    + [  10,   17,   23,   15,   20,   45,   44,   13]
    + [  -8,   22,   24,   27,   26,   33,   26,    3]
    + [ -18,   -4,   21,   24,   27,   23,    9,  -11]
    + [ -19,   -3,   11,   21,   23,   16,    7,   -9]
    + [ -27,  -11,    4,   13,   14,    4,   -5,  -17]
    + [ -53,  -34,  -21,  -11,  -28,  -14,  -24,  -43]
}

=== FILE: text.dfy ===
/** Text handling used by the command interpreter: whitespace splitting and
    trimming as Rust's `str::split_whitespace` and `str::trim` do them,
    joining with single spaces, first-occurrence search, ASCII
    case-insensitive comparison, and `str::parse::<u64>`. */
module Text {
  import opened Chess

  /** Rust's `char::is_whitespace`: the Unicode White_Space property. Among
      ASCII characters these are space, tab, line feed, vertical tab, form
      feed and carriage return. */
  predicate IsWhitespace(c: char): (r: bool)
    ensures c < '\U{0080}' ==> (r <==> c in " \t\n\U{000B}\U{000C}\r")
  {
    || ('\t' <= c <= '\r')
    || c == ' '
    || c == '\U{0085}'
    || c == '\U{00A0}'
    || c == '\U{1680}'
    || ('\U{2000}' <= c <= '\U{200A}')
    || c == '\U{2028}'
    || c == '\U{2029}'
    || c == '\U{202F}'
    || c == '\U{205F}'
    || c == '\U{3000}'
  }

  /** A non-empty run of non-whitespace characters. */
  ghost predicate IsToken(t: string) {
    |t| > 0 && forall i | 0 <= i < |t| :: !IsWhitespace(t[i])
  }

  ghost predicate AllWhitespace(s: string) {
    forall i | 0 <= i < |s| :: IsWhitespace(s[i])
  }

  /** The length of the longest whitespace-free prefix. */
  function WordLength(s: string): (n: nat)
    ensures n <= |s|
    ensures forall i | 0 <= i < n :: !IsWhitespace(s[i])
    ensures n < |s| ==> IsWhitespace(s[n])
  {
    if |s| == 0 || IsWhitespace(s[0]) then 0 else 1 + WordLength(s[1..])
  }

  /** `split_whitespace`: the maximal whitespace-free runs, in order. */
  function Tokens(s: string): (ts: seq<string>)
    ensures forall i | 0 <= i < |ts| :: IsToken(ts[i])
    ensures |ts| == 0 <==> AllWhitespace(s)
    decreases |s|
  {
    if |s| == 0 then []
    else if IsWhitespace(s[0]) then Tokens(s[1..])
    else
      var n := WordLength(s);
      [s[..n]] + Tokens(s[n..])
  }

  /** `join(" ")`. */
  function Join(ts: seq<string>): string {
    if |ts| == 0 then ""
    else if |ts| == 1 then ts[0]
    else ts[0] + " " + Join(ts[1..])
  }

  lemma WordLengthOfToken(t: string, rest: string)
    requires IsToken(t) && (|rest| == 0 || IsWhitespace(rest[0]))
    ensures WordLength(t + rest) == |t|
  {
    var n := WordLength(t + rest);
    assert forall i | 0 <= i < |t| :: (t + rest)[i] == t[i];
    if |rest| > 0 {
      assert (t + rest)[|t|] == rest[0];
    }
  }

  /** Splitting undoes joining: tokens joined by single spaces split back
      into the same tokens. */
  lemma {:induction false} TokensOfJoin(ts: seq<string>)
    requires forall i | 0 <= i < |ts| :: IsToken(ts[i])
    ensures Tokens(Join(ts)) == ts
    decreases |ts|
  {
    if |ts| == 1 {
      WordLengthOfToken(ts[0], "");
      assert ts[0] + "" == ts[0];
      assert ts[0][|ts[0]|..] == "";
    } else if |ts| > 1 {
      var t, rest := ts[0], " " + Join(ts[1..]);
      var s := t + rest;
      assert Join(ts) == s;
      WordLengthOfToken(t, rest);
      assert s[..|t|] == t;
      assert s[|t|..] == rest;
      assert s[0] == t[0] && !IsWhitespace(s[0]);
      assert Tokens(s) == [t] + Tokens(rest);
      assert rest[1..] == Join(ts[1..]);
      assert Tokens(rest) == Tokens(Join(ts[1..]));
      TokensOfJoin(ts[1..]);
    }
  }

  /** `ws[0] + ts[0] + ws[1] + … + ts[k - 1] + ws[k]`: the tokens with a
      separator run before, between and after them. */
  function Interleave(ws: seq<string>, ts: seq<string>): string
    requires |ws| == |ts| + 1
    decreases |ts|
  {
    if |ts| == 0 then ws[0] else ws[0] + ts[0] + Interleave(ws[1..], ts[1..])
  }

  /** Separator runs: all whitespace, and the inner ones non-empty. */
  ghost predicate Separators(ws: seq<string>) {
    && (forall i | 0 <= i < |ws| :: AllWhitespace(ws[i]))
    && (forall i | 0 < i < |ws| - 1 :: |ws[i]| > 0)
  }

  lemma InterleaveFirst(ws: seq<string>, ts: seq<string>)
    requires |ws| == |ts| + 1 && |ts| > 0 && |ts[0]| > 0
    ensures |ws[0]| == 0 ==> |Interleave(ws, ts)| > 0 && Interleave(ws, ts)[0] == ts[0][0]
    ensures |ws[0]| > 0 ==> |Interleave(ws, ts)| > 0 && Interleave(ws, ts)[0] == ws[0][0]
  {
    assert Interleave(ws, ts) == ws[0] + (ts[0] + Interleave(ws[1..], ts[1..]));
  }

  /** Splitting recovers the tokens whatever whitespace runs separate them:
      any tokens, with any whitespace before and after and a non-empty run
      of whitespace between each two, split back into exactly those tokens. */
  lemma {:induction false} TokensOfInterleave(ws: seq<string>, ts: seq<string>)
    requires |ws| == |ts| + 1 && Separators(ws)
    requires forall i | 0 <= i < |ts| :: IsToken(ts[i])
    ensures Tokens(Interleave(ws, ts)) == ts
    decreases |ts|
  {
    if |ts| > 0 {
      var t, after := ts[0], Interleave(ws[1..], ts[1..]);
      assert Separators(ws[1..]) by {
        forall i | 0 < i < |ws[1..]| - 1
          ensures |ws[1..][i]| > 0
        {
          assert ws[1..][i] == ws[i + 1];
        }
      }
      TokensOfInterleave(ws[1..], ts[1..]);
      if |ts| > 1 {
        InterleaveFirst(ws[1..], ts[1..]);
        assert IsWhitespace(ws[1][0]);
      } else {
        assert after == ws[1];
      }
      WordLengthOfToken(t, after);
      var s := t + after;
      assert s[..|t|] == t;
      assert s[|t|..] == after;
      assert s[0] == t[0] && !IsWhitespace(s[0]);
      assert Tokens(s) == [t] + Tokens(after);
      assert Interleave(ws, ts) == ws[0] + s;
      TokensSkipLeading(ws[0], s);
    }
  }

  lemma InterleaveGrowFirst(p: string, ws: seq<string>, ts: seq<string>)
    requires |ws| == |ts| + 1
    ensures Interleave([p + ws[0]] + ws[1..], ts) == p + Interleave(ws, ts)
  {
    var ws' := [p + ws[0]] + ws[1..];
    assert ws'[0] == p + ws[0];
    if |ts| > 0 {
      assert ws'[1..] == ws[1..];
    }
  }

  /** The separators of a single-space join: nothing before the first token
      or after the last, and one space between each two. */
  function SingleSpaces(k: nat): (ws: seq<string>)
    requires k > 0
    ensures |ws| == k + 1
  {
    [""] + seq(k - 1, _ => " ") + [""]
  }

  /** `join(" ")` puts exactly one space between consecutive tokens and
      nothing around them. */
  lemma {:induction false} JoinIsInterleave(ts: seq<string>)
    requires |ts| > 0
    ensures Join(ts) == Interleave(SingleSpaces(|ts|), ts)
    decreases |ts|
  {
    var ws := SingleSpaces(|ts|);
    if |ts| == 1 {
      assert ws == ["", ""];
      assert ws[1..] == [""];
      assert Interleave(ws, ts) == "" + ts[0] + "";
    } else {
      var ws' := SingleSpaces(|ts| - 1);
      JoinIsInterleave(ts[1..]);
      var k := |ts| - 1;
      assert " " + ws'[0] == " ";
      assert seq(k, _ => " ") == [" "] + seq(k - 1, _ => " ");
      assert ws[1..] == seq(k, _ => " ") + [""];
      assert ws'[1..] == seq(k - 1, _ => " ") + [""];
      assert ws[1..] == [" " + ws'[0]] + ws'[1..];
      InterleaveGrowFirst(" ", ws', ts[1..]);
      assert Interleave(ws, ts) == ws[0] + ts[0] + Interleave(ws[1..], ts[1..]);
      assert ws[0] == "";
    }
  }

  /** The converse: every line is its tokens with whitespace runs around and
      between them, so the tokens are exactly its maximal whitespace-free
      runs. */
  lemma {:induction false} SplitAtTokens(s: string) returns (ws: seq<string>)
    ensures |ws| == |Tokens(s)| + 1 && Separators(ws)
    ensures Interleave(ws, Tokens(s)) == s
    decreases |s|
  {
    if |s| == 0 {
      ws := [""];
    } else if IsWhitespace(s[0]) {
      var ws' := SplitAtTokens(s[1..]);
      ws := SplitAfterSpace(s, ws');
    } else {
      var n := WordLength(s);
      var ws' := SplitAtTokens(s[n..]);
      ws := SplitAfterWord(s, ws');
    }
  }

  /** A leading whitespace character joins the first separator run. */
  lemma SplitAfterSpace(s: string, ws': seq<string>) returns (ws: seq<string>)
    requires |s| > 0 && IsWhitespace(s[0])
    requires |ws'| == |Tokens(s[1..])| + 1 && Separators(ws')
    requires Interleave(ws', Tokens(s[1..])) == s[1..]
    ensures |ws| == |Tokens(s)| + 1 && Separators(ws)
    ensures Interleave(ws, Tokens(s)) == s
  {
    ws := [[s[0]] + ws'[0]] + ws'[1..];
    assert Tokens(s) == Tokens(s[1..]);
    InterleaveGrowFirst([s[0]], ws', Tokens(s));
    assert [s[0]] + s[1..] == s;
    assert AllWhitespace(ws[0]) by {
      forall i | 0 <= i < |ws[0]|
        ensures IsWhitespace(ws[0][i])
      {
        if i > 0 {
          assert ws[0][i] == ws'[0][i - 1];
        }
      }
    }
    assert forall i | 0 < i < |ws| :: ws[i] == ws'[i];
  }

  /** A leading word becomes the first token, after an empty run. */
  lemma SplitAfterWord(s: string, ws': seq<string>) returns (ws: seq<string>)
    requires |s| > 0 && !IsWhitespace(s[0])
    requires var n := WordLength(s);
             |ws'| == |Tokens(s[n..])| + 1 && Separators(ws') && Interleave(ws', Tokens(s[n..])) == s[n..]
    ensures |ws| == |Tokens(s)| + 1 && Separators(ws)
    ensures Interleave(ws, Tokens(s)) == s
  {
    var n := WordLength(s);
    var t, rest := s[..n], Tokens(s[n..]);
    TokensOfWord(s);
    ws := [""] + ws';
    InterleaveCons(t, ws', rest);
    assert t + s[n..] == s;
    if |rest| > 0 {
      InterleaveFirst(ws', rest);
      assert s[n..][0] == s[n];
      assert IsToken(rest[0]);
    }
    SeparatorsCons("", ws');
  }

  /** A line starting with a word splits into that word and the tokens of
      the remainder. */
  lemma TokensOfWord(s: string)
    requires |s| > 0 && !IsWhitespace(s[0])
    ensures var n := WordLength(s);
            0 < n && (n < |s| ==> IsWhitespace(s[n])) && Tokens(s) == [s[..n]] + Tokens(s[n..])
  {
  }

  lemma InterleaveCons(t: string, ws: seq<string>, ts: seq<string>)
    requires |ws| == |ts| + 1
    ensures Interleave([""] + ws, [t] + ts) == t + Interleave(ws, ts)
  {
    var ws', ts' := [""] + ws, [t] + ts;
    assert ws'[0] == "" && ts'[0] == t && ws'[1..] == ws && ts'[1..] == ts;
    assert "" + t == t;
  }

  lemma SeparatorsCons(w: string, ws: seq<string>)
    requires AllWhitespace(w) && Separators(ws)
    requires |ws| > 1 ==> |ws[0]| > 0
    ensures Separators([w] + ws)
  {
    var ws' := [w] + ws;
    assert forall i | 0 < i < |ws'| :: ws'[i] == ws[i - 1];
  }

  // ---------------------------------------------------------------------
  // Trimming

  /** `trim_start`: drops the leading whitespace. */
  function TrimStart(s: string): (r: string)
    ensures |r| <= |s| && r == s[|s| - |r|..]
    ensures AllWhitespace(s[..|s| - |r|])
    ensures |r| > 0 ==> !IsWhitespace(r[0])
  {
    if |s| > 0 && IsWhitespace(s[0]) then TrimStart(s[1..]) else s
  }

  /** `trim_end`: drops the trailing whitespace. */
  function TrimEnd(s: string): (r: string)
    ensures |r| <= |s| && r == s[..|r|]
    ensures AllWhitespace(s[|r|..])
    ensures |r| > 0 ==> !IsWhitespace(r[|r| - 1])
  {
    if |s| > 0 && IsWhitespace(s[|s| - 1]) then
      var r := TrimEnd(s[..|s| - 1]);
      assert s[|r|..] == s[..|s| - 1][|r|..] + [s[|s| - 1]];
      r
    else s
  }

  /** `trim`: drops whitespace at both ends, which leaves the tokens as they
      were. */
  function Trim(s: string): (r: string)
    ensures |r| > 0 ==> !IsWhitespace(r[0]) && !IsWhitespace(r[|r| - 1])
    ensures Tokens(r) == Tokens(s)
  {
    TokensOfTrimStart(s);
    TokensOfTrimEnd(TrimStart(s));
    TrimEnd(TrimStart(s))
  }

  lemma {:induction false} TokensSkipLeading(w: string, s: string)
    requires AllWhitespace(w)
    ensures Tokens(w + s) == Tokens(s)
    decreases |w|
  {
    if |w| > 0 {
      assert (w + s)[1..] == w[1..] + s;
      TokensSkipLeading(w[1..], s);
    } else {
      assert w + s == s;
    }
  }

  lemma {:induction false} TokensSkipTrailingChar(s: string, c: char)
    requires IsWhitespace(c)
    ensures Tokens(s + [c]) == Tokens(s)
    decreases |s|
  {
    var sc := s + [c];
    if |s| == 0 {
      assert sc[1..] == [];
    } else if IsWhitespace(s[0]) {
      assert sc[1..] == s[1..] + [c];
      TokensSkipTrailingChar(s[1..], c);
    } else {
      var n := WordLength(s);
      assert s == s[..n] + s[n..];
      WordLengthOfToken(s[..n], s[n..]);
      assert sc == s[..n] + (s[n..] + [c]);
      WordLengthOfToken(s[..n], s[n..] + [c]);
      assert sc[..n] == s[..n];
      assert sc[n..] == s[n..] + [c];
      TokensSkipTrailingChar(s[n..], c);
    }
  }

  lemma {:induction false} TokensSkipTrailing(s: string, w: string)
    requires AllWhitespace(w)
    ensures Tokens(s + w) == Tokens(s)
    decreases |w|
  {
    if |w| == 0 {
      assert s + w == s;
    } else {
      var w' := w[..|w| - 1];
      assert s + w == (s + w') + [w[|w| - 1]];
      TokensSkipTrailingChar(s + w', w[|w| - 1]);
      TokensSkipTrailing(s, w');
    }
  }

  /** Trimming a line does not change its tokens, and the trimmed line is
      empty exactly when the line has no token. */
  lemma TokensOfTrim(s: string)
    ensures Tokens(Trim(s)) == Tokens(s)
    ensures |Trim(s)| == 0 <==> |Tokens(s)| == 0
  {
    var a := TrimStart(s);
    var b := TrimEnd(a);
    TokensOfTrimStart(s);
    TokensOfTrimEnd(a);
    if |b| > 0 {
      assert b[0] == a[0];
      assert !AllWhitespace(b);
    }
  }

  lemma TokensOfTrimStart(s: string)
    ensures Tokens(TrimStart(s)) == Tokens(s)
  {
    var a := TrimStart(s);
    var w := s[..|s| - |a|];
    assert s == w + a;
    TokensSkipLeading(w, a);
  }

  lemma TokensOfTrimEnd(a: string)
    ensures Tokens(TrimEnd(a)) == Tokens(a)
  {
    var b := TrimEnd(a);
    var w := a[|b|..];
    assert a == b + w;
    TokensSkipTrailing(b, w);
  }

  // ---------------------------------------------------------------------
  // Searching and comparing

  /** `iter().position(|t| t == w)`: the first index holding `w`. */
  function IndexOf(ts: seq<string>, w: string): (r: Option<nat>)
    ensures r.None? <==> w !in ts
    ensures r.Some? ==> r.value < |ts| && ts[r.value] == w && w !in ts[..r.value]
  {
    if |ts| == 0 then None
    else if ts[0] == w then Some(0)
    else match IndexOf(ts[1..], w)
      case None => None
      case Some(i) => assert ts[..i + 1] == [ts[0]] + ts[1..][..i]; Some(i + 1)
  }

  function AsciiLower(c: char): char {
    if 'A' <= c <= 'Z' then (c as int + 32) as char else c
  }

  /** `eq_ignore_ascii_case`: equal after lowering the ASCII letters. */
  predicate EqIgnoreAsciiCase(a: string, b: string): (r: bool)
    ensures a == b ==> r
    ensures r ==> |a| == |b|
    ensures r ==> forall i | 0 <= i < |a| && 'a' <= b[i] <= 'z' :: a[i] == b[i] || a[i] as int == b[i] as int - 32
    ensures (&& |a| == |b|
             && forall i | 0 <= i < |a| :: a[i] == b[i] || ('a' <= b[i] <= 'z' && a[i] as int == b[i] as int - 32))
            ==> r
  {
    |a| == |b| && forall i | 0 <= i < |a| :: AsciiLower(a[i]) == AsciiLower(b[i])
  }

  // ---------------------------------------------------------------------
  // Unsigned decimal numbers

  const U64_LIMIT: int := 0x1_0000_0000_0000_0000

  predicate IsDigit(c: char) {
    '0' <= c <= '9'
  }

  function DigitValue(c: char): nat
    requires IsDigit(c)
  {
    c as int - '0' as int
  }

  ghost predicate AllDigits(s: string) {
    forall i | 0 <= i < |s| :: IsDigit(s[i])
  }

  /** The number a digit string denotes, read most significant digit first. */
  function DecimalValue(s: string): nat
    requires AllDigits(s)
  {
    if |s| == 0 then 0 else DecimalValue(s[..|s| - 1]) * 10 + DigitValue(s[|s| - 1])
  }

  /** `str::parse::<u64>`: an optional leading `+`, then one or more ASCII
      digits whose value fits in 64 bits. */
  function ParseU64(s: string): (r: Option<nat>)
    ensures r.Some? ==> r.value < U64_LIMIT
    ensures r.Some? ==> |s| > 0 && (IsDigit(s[0]) || s[0] == '+')
  {
    var digits := if |s| > 0 && s[0] == '+' then s[1..] else s;
    if |digits| == 0 || exists i | 0 <= i < |digits| :: !IsDigit(digits[i]) then None
    else
      var v := DecimalValue(digits);
      if v < U64_LIMIT then Some(v) else None
  }

  /** The decimal rendering of a number, without sign or leading zeros. */
  function ShowNat(n: nat): (s: string)
    ensures |s| > 0 && AllDigits(s)
    ensures DecimalValue(s) == n
  {
    var last := ['0' + ((n % 10) as char)];
    if n < 10 then last else ShowNat(n / 10) + last
  }

  /** Parsing a rendered 64-bit number gives it back. */
  lemma ParseShowNat(n: nat)
    requires n < U64_LIMIT
    ensures ParseU64(ShowNat(n)) == Some(n)
  {
    var s := ShowNat(n);
    assert IsDigit(s[0]);
  }
}

=== FILE: uci.dfy ===
/** The pure part of the UCI (Universal Chess Interface) command interpreter
    of src/main.rs: each input line is trimmed, split on whitespace and
    dispatched on its first token to a handler that updates the engine state
    `{ pos, nickname, thinking }` and produces response lines.

    Chess itself is abstract here: the interpreter is generic in the position
    type `P` and the move type `M`, and the board library's services (the
    default position, whose turn it is, FEN parsing, UCI move parsing, move
    conversion and play) come in a `Rules` record. */
module Uci {
  import opened Chess
  import opened Text

  const DEFAULT_NICKNAME: string := "AllRustBot"

  /** Think time, in milliseconds, when the mover's clock was not given. */
  const DEFAULT_THINK_MILLIS: nat := 100

  /** The fraction of the remaining clock spent on one move: 1/20. */
  const CLOCK_DIVISOR: nat := 20

  /** The board library's services the interpreter calls.
      `parseFen` is None when the text is not a FEN or not a legal position;
      `parseMove` is None when the text is not UCI move syntax;
      `play` is None when the move is not legal in the position, and
      otherwise the position after it. */
  datatype Rules<!P, !M> = Rules(
    start: P,
    turn: P -> Color,
    parseFen: string -> Option<P>,
    parseMove: string -> Option<M>,
    play: (P, M) -> Option<P>)

  datatype EngineState<P> = EngineState(pos: P, nickname: string, thinking: bool)

  /** The `expect` panics of the position handler: a FEN that does not parse
      or is not a legal position, and a move text that is not UCI syntax. */
  datatype Fault = InvalidFen | InvalidMoveText

  datatype Result<T> = Ok(value: T) | Err(fault: Fault)

  /** A search started by `go`: the position and its time budget. */
  datatype SearchJob<P> = SearchJob(position: P, thinkMillis: nat)

  /** What handling one line does: go on with a new state, its response lines
      and possibly a started search; exit the process; or panic. */
  datatype Reply<P> =
    | Next(state: EngineState<P>, output: seq<string>, search: Option<SearchJob<P>>)
    | Exit
    | Panic(fault: Fault)

  /** `EngineState::new`: a fresh engine introduces itself as `AllRustBot`
      and is idle, so its first `go` starts a search of the default
      position. */
  function NewState<P, M>(rules: Rules<P, M>): (r: EngineState<P>)
    ensures Dispatch(rules, r, ["uci"]).output[0] == "id name AllRustBot"
    ensures var go := Dispatch(rules, r, ["go"]);
            go.Next? && go.search.Some? && go.search.value.position == rules.start
  {
    EngineState(rules.start, DEFAULT_NICKNAME, false)
  }

  function Quiet<P>(st: EngineState<P>): Reply<P> {
    Next(st, [], None)
  }

  // ---------------------------------------------------------------------
  // setoption

  /** `handle_setoption` on the tokens after the command word: only the
      `nick` option exists. Its name is whatever stands between `name` and the
      first `value`, joined by spaces; its value is everything after. */
  function HandleSetOption<P>(st: EngineState<P>, args: seq<string>): (r: EngineState<P>)
    ensures r.pos == st.pos && r.thinking == st.thinking
    ensures |args| == 0 || args[0] != "name" ==> r == st
  {
    if |args| == 0 || args[0] != "name" then st
    else match IndexOf(args, "value")
      case None => st
      case Some(vi) =>
        if vi > 1 && EqIgnoreAsciiCase(Join(args[1..vi]), "nick") then st.(nickname := Join(args[vi + 1..]))
        else st
  }

  // ---------------------------------------------------------------------
  // uci

  /** `handle_uci`: identification, the one option, and `uciok`. */
  function UciLines(nickname: string): (lines: seq<string>)
    ensures |lines| == 4 && lines[3] == "uciok"
  {
    ["id name " + nickname,
     "id author All",
     "option name nick type string default " + nickname,
     "uciok"]
  }

  // ---------------------------------------------------------------------
  // position

  /** Plays the move texts in order. Text that is not move syntax panics;
      a well-formed move that is illegal in the current position is skipped. */
  function ApplyMoves<P, M>(rules: Rules<P, M>, pos: P, moves: seq<string>): (r: Result<P>)
    ensures r.Err? ==> r.fault == InvalidMoveText
    decreases |moves|
  {
    if |moves| == 0 then Ok(pos)
    else match rules.parseMove(moves[0])
      case None => Err(InvalidMoveText)
      case Some(m) =>
        var next := match rules.play(pos, m) case Some(q) => q case None => pos;
        ApplyMoves(rules, next, moves[1..])
  }

  /** The moves after the first `moves` token, if there is one. */
  function MovesAfter(args: seq<string>, movesAt: Option<nat>): seq<string>
    requires movesAt.Some? ==> movesAt.value < |args|
  {
    match movesAt
    case None => []
    case Some(i) => args[i + 1..]
  }

  /** `handle_position` on the tokens after the command word: it replaces
      the position and nothing else, prints nothing, and can only panic, on a
      bad FEN only after `fen`. */
  function HandlePosition<P, M>(rules: Rules<P, M>, st: EngineState<P>, args: seq<string>): (r: Reply<P>)
    ensures !r.Exit?
    ensures r.Next? ==> r.output == [] && r.search.None? && r.state == st.(pos := r.state.pos)
    ensures r.Panic? && r.fault == InvalidFen ==> |args| > 0 && args[0] == "fen"
  {
    if |args| > 0 && (args[0] == "startpos" || args[0] == "fen") then
      var movesAt := IndexOf(args, "moves");
      var base :=
        if args[0] == "startpos" then Ok(rules.start)
        else
          var fenTokens := match movesAt case Some(i) => args[1..i] case None => args[1..];
          match rules.parseFen(Join(fenTokens))
          case None => Err(InvalidFen)
          case Some(p) => Ok(p);
      match base
      case Err(f) => Panic(f)
      case Ok(p) =>
        match ApplyMoves(rules, p, MovesAfter(args, movesAt))
        case Err(f) => Panic(f)
        case Ok(q) => Quiet(st.(pos := q))
    else Quiet(st)
  }

  // ---------------------------------------------------------------------
  // go

  datatype Clocks = Clocks(wtime: Option<nat>, btime: Option<nat>)

  predicate IsClockKeyword(t: string) {
    t == "wtime" || t == "btime"
  }

  /** The argument scan of `handle_go` from index `i`: a clock keyword with
      a following token consumes both, recording the value when it parses as
      a `u64`; any other token, or a keyword at the end, consumes one. */
  function ScanGo(args: seq<string>, i: nat, clocks: Clocks): (r: Clocks)
    requires i <= |args|
    ensures clocks.wtime.Some? ==> r.wtime.Some?
    ensures clocks.btime.Some? ==> r.btime.Some?
    ensures r.wtime != clocks.wtime ==> r.wtime.Some? && r.wtime.value < U64_LIMIT
    ensures r.btime != clocks.btime ==> r.btime.Some? && r.btime.value < U64_LIMIT
    ensures (forall j | i <= j < |args| :: !IsClockKeyword(args[j])) ==> r == clocks
    decreases |args| - i
  {
    if i == |args| then clocks
    else if IsClockKeyword(args[i]) && i + 1 < |args| then
      var v := ParseU64(args[i + 1]);
      var clocks' :=
        if v.None? then clocks
        else if args[i] == "wtime" then clocks.(wtime := v)
        else clocks.(btime := v);
      ScanGo(args, i + 2, clocks')
    else ScanGo(args, i + 1, clocks)
  }

  /** The target think time: a twentieth of the mover's remaining clock
      (rounded down), or 100 ms when that clock was not given. */
  function ThinkTime(turn: Color, clocks: Clocks): (ms: nat)
    ensures var t := if turn == White then clocks.wtime else clocks.btime;
            && (t.Some? ==> ms * CLOCK_DIVISOR <= t.value < ms * CLOCK_DIVISOR + CLOCK_DIVISOR)
            && (t.None? ==> ms == DEFAULT_THINK_MILLIS)
  {
    var time := if turn == White then clocks.wtime else clocks.btime;
    match time
    case Some(available) => available / CLOCK_DIVISOR
    case None => DEFAULT_THINK_MILLIS
  }

  /** `handle_go`: ignored while a search runs; otherwise marks the engine
      as thinking and starts a search of the current position with the
      computed time budget. */
  function HandleGo<P, M>(rules: Rules<P, M>, st: EngineState<P>, args: seq<string>): (r: Reply<P>)
    ensures st.thinking ==> r == Quiet(st)
    ensures !st.thinking ==> r.Next? && r.state == st.(thinking := true) && r.output == []
    ensures !st.thinking ==> r.Next? && r.search.Some? && r.search.value.position == st.pos
  {
    if st.thinking then Quiet(st)
    else
      var clocks := ScanGo(args, 0, Clocks(None, None));
      Next(st.(thinking := true), [], Some(SearchJob(st.pos, ThinkTime(rules.turn(st.pos), clocks))))
  }

  // ---------------------------------------------------------------------
  // Dispatch and the input loop

  /** `handle_command` after splitting: dispatch on the first token; an
      empty token list or an unknown command changes nothing. Only `quit`
      exits, only `position` panics, only `go` starts a search, and only
      `isready` and `uci` print. */
  function Dispatch<P, M>(rules: Rules<P, M>, st: EngineState<P>, tokens: seq<string>): (r: Reply<P>)
    ensures r.Exit? <==> |tokens| > 0 && tokens[0] == "quit"
    ensures r.Panic? ==> |tokens| > 0 && tokens[0] == "position"
    ensures r.Next? && r.search.Some? ==> |tokens| > 0 && tokens[0] == "go"
    ensures r.Next? && r.output != [] ==> |tokens| > 0 && (tokens[0] == "isready" || tokens[0] == "uci")
    ensures |tokens| == 0 || !IsCommand(tokens[0]) ==> r == Quiet(st)
  {
    if |tokens| == 0 then Quiet(st)
    else
      var command, args := tokens[0], tokens[1..];
      if command == "position" then HandlePosition(rules, st, args)
      else if command == "go" then HandleGo(rules, st, args)
      else if command == "isready" then Next(st, ["readyok"], None)
      else if command == "uci" then Next(st, UciLines(st.nickname), None)
      else if command == "quit" then Exit
      else if command == "stop" then Quiet(st.(thinking := false))
      else if command == "ucinewgame" then Quiet(st.(pos := rules.start))
      else if command == "setoption" then Quiet(HandleSetOption(st, args))
      else Quiet(st)
  }

  predicate IsCommand(t: string) {
    t in {"position", "go", "isready", "uci", "quit", "stop", "ucinewgame", "setoption"}
  }

  /** `handle_command`: split the line on whitespace and dispatch. */
  function HandleCommand<P, M>(rules: Rules<P, M>, st: EngineState<P>, line: string): (r: Reply<P>)
    ensures AllWhitespace(line) ==> r == Quiet(st)
    ensures r.Exit? <==> |Tokens(line)| > 0 && Tokens(line)[0] == "quit"
    ensures r.Panic? ==> |Tokens(line)| > 0 && Tokens(line)[0] == "position"
  {
    Dispatch(rules, st, Tokens(line))
  }

  /** One iteration of the input loop: the line is trimmed, skipped when
      empty, and otherwise handled. */
  function ProcessLine<P, M>(rules: Rules<P, M>, st: EngineState<P>, line: string): (r: Reply<P>)
    ensures AllWhitespace(line) ==> r == Quiet(st)
    ensures !AllWhitespace(line) ==> r == Dispatch(rules, st, Tokens(line))
  {
    TokensOfTrim(line);
    var trimmed := Trim(line);
    if |trimmed| == 0 then Quiet(st) else HandleCommand(rules, st, trimmed)
  }

  /** Why the input loop stopped before the input ended. */
  datatype Halt = Quit | Crashed(fault: Fault)

  /** The run so far: state, every response line, every search started, and
      whether the process has stopped. */
  datatype Session<P> = Session(state: EngineState<P>, output: seq<string>, searches: seq<SearchJob<P>>, halt: Option<Halt>)

  /** The input loop over the lines read; nothing is handled once the
      process has stopped, and what was printed or started stays. */
  function Run<P, M>(rules: Rules<P, M>, s: Session<P>, lines: seq<string>): (r: Session<P>)
    ensures s.output <= r.output && s.searches <= r.searches
    ensures s.halt.Some? ==> r == s
    decreases |lines|
  {
    if |lines| == 0 || s.halt.Some? then s
    else Run(rules, Step(rules, s, lines[0]), lines[1..])
  }

  /** One line of the loop: its reply is appended to the session, or stops
      it. */
  function Step<P, M>(rules: Rules<P, M>, s: Session<P>, line: string): (r: Session<P>)
    ensures s.output <= r.output && s.searches <= r.searches
    ensures r.halt.Some? ==> r.state == s.state && r.output == s.output && r.searches == s.searches
  {
    match ProcessLine(rules, s.state, line)
    case Next(st, out, job) =>
      Session(st, s.output + out, s.searches + (if job.Some? then [job.value] else []), None)
    case Exit => s.(halt := Some(Quit))
    case Panic(f) => s.(halt := Some(Crashed(f)))
  }
}

=== FILE: uci_properties.dfy ===
/** What the command interpreter promises: blank and unknown lines change
    nothing, `setoption` renames the engine only through the `nick` option,
    `position` splits its tokens into a FEN and a move list, the `go` scan
    keeps the last clock value it reads, and the input loop composes line by
    line. */
module UciProperties {
  import opened Chess
  import opened Text
  import opened Uci

  // ---------------------------------------------------------------------
  // The input loop and dispatch

  /** Handling a trimmed line is dispatching on the tokens of the raw line. */
  lemma ProcessLineDispatchesTokens<P, M>(rules: Rules<P, M>, st: EngineState<P>, line: string)
    ensures ProcessLine(rules, st, line) == Dispatch(rules, st, Tokens(line))
  {
    TokensOfTrim(line);
  }

  /** An empty or whitespace-only line, or one whose first word is not a
      command, leaves the state unchanged and prints nothing. */
  lemma IgnoredLines<P, M>(rules: Rules<P, M>, st: EngineState<P>, line: string)
    requires AllWhitespace(line) || !IsCommand(Tokens(line)[0])
    ensures ProcessLine(rules, st, line) == Quiet(st)
  {
    ProcessLineDispatchesTokens(rules, st, line);
  }

  /** `ucinewgame` resets the position and nothing else; `stop` clears the
      thinking flag and nothing else. */
  lemma NewGameAndStop<P, M>(rules: Rules<P, M>, st: EngineState<P>, args: seq<string>)
    ensures Dispatch(rules, st, ["ucinewgame"] + args) == Quiet(EngineState(rules.start, st.nickname, st.thinking))
    ensures Dispatch(rules, st, ["stop"] + args) == Quiet(EngineState(st.pos, st.nickname, false))
  {
  }

  /** A blank line in the input has no effect on the run. */
  lemma RunSkipsBlankLine<P, M>(rules: Rules<P, M>, s: Session<P>, line: string, rest: seq<string>)
    requires AllWhitespace(line)
    ensures Run(rules, s, [line] + rest) == Run(rules, s, rest)
  {
    if s.halt.None? {
      TokensOfTrim(line);
      assert ([line] + rest)[1..] == rest;
      assert s.output + [] == s.output;
      assert s.searches + [] == s.searches;
      assert Step(rules, s, line) == s;
    }
  }

  /** `isready` answers `readyok` and changes nothing. */
  lemma IsReadyReplies<P, M>(rules: Rules<P, M>, st: EngineState<P>, line: string)
    requires |Tokens(line)| > 0 && Tokens(line)[0] == "isready"
    ensures ProcessLine(rules, st, line) == Next(st, ["readyok"], None)
  {
    ProcessLineDispatchesTokens(rules, st, line);
    var ts := Tokens(line);
    assert ts[0] != "position" && ts[0] != "go";
    assert Dispatch(rules, st, ts) == Next(st, ["readyok"], None);
  }

  /** A `quit` line stops the loop: the session keeps its state and output,
      and no later line is handled. */
  lemma QuitEndsRun<P, M>(rules: Rules<P, M>, s: Session<P>, line: string, rest: seq<string>)
    requires s.halt.None? && |Tokens(line)| > 0 && Tokens(line)[0] == "quit"
    ensures Run(rules, s, [line] + rest) == s.(halt := Some(Quit))
  {
    ProcessLineDispatchesTokens(rules, s.state, line);
    var ts := Tokens(line);
    assert ts[0] != "position" && ts[0] != "go" && ts[0] != "isready" && ts[0] != "uci";
    assert Dispatch(rules, s.state, ts) == Exit;
    var halted := Step(rules, s, line);
    assert halted == s.(halt := Some(Quit));
    assert Run(rules, halted, rest) == halted;
    assert ([line] + rest)[0] == line && ([line] + rest)[1..] == rest;
  }

  /** The loop over two batches of lines is the loop over the first batch
      followed by the loop over the second. */
  lemma {:induction false} RunAppend<P, M>(rules: Rules<P, M>, s: Session<P>, a: seq<string>, b: seq<string>)
    ensures Run(rules, s, a + b) == Run(rules, Run(rules, s, a), b)
    decreases |a|
  {
    if |a| == 0 {
      assert a + b == b;
    } else if s.halt.None? {
      assert (a + b)[0] == a[0];
      assert (a + b)[1..] == a[1..] + b;
      RunAppend(rules, Step(rules, s, a[0]), a[1..], b);
    } else {
      assert Run(rules, s, a) == s;
    }
  }

  // ---------------------------------------------------------------------
  // setoption and uci

  lemma JoinSpaceAfterFirst(ts: seq<string>)
    requires |ts| >= 2
    ensures |Join(ts)| > |ts[0]| && Join(ts)[|ts[0]|] == ' '
  {
  }

  /** A name joined from two or more tokens contains a space, which no
      spelling of `nick` does: the option name is a single token. */
  lemma NickIsOneToken(ts: seq<string>)
    requires |ts| >= 1
    ensures EqIgnoreAsciiCase(Join(ts), "nick") ==> |ts| == 1
  {
    if |ts| >= 2 {
      JoinSpaceAfterFirst(ts);
      var k := |ts[0]|;
      assert AsciiLower(Join(ts)[k]) == ' ';
      if k < 4 {
        assert AsciiLower("nick"[k]) != ' ';
      }
    }
  }

  /** `setoption` changes the state only as `setoption name <nick> value V…`
      with `nick` in any ASCII case, and then the nickname becomes the value
      tokens joined by spaces. */
  lemma SetOptionOnlyRenames<P>(st: EngineState<P>, args: seq<string>)
    ensures var r := HandleSetOption(st, args);
            r == st
            || (&& |args| >= 3 && args[0] == "name" && EqIgnoreAsciiCase(args[1], "nick")
                && args[2] == "value" && r == st.(nickname := Join(args[3..])))
  {
    if |args| > 0 && args[0] == "name" {
      match IndexOf(args, "value")
      case None =>
      case Some(vi) =>
        if vi > 1 {
          NickIsOneToken(args[1..vi]);
          if EqIgnoreAsciiCase(Join(args[1..vi]), "nick") {
            assert args[1..vi] == [args[1]];
          }
        }
    }
  }

  /** Conversely, `setoption name <nick> value V…` sets the nickname to the
      value tokens joined by spaces. */
  lemma SetOptionRenames<P>(st: EngineState<P>, nick: string, vs: seq<string>)
    requires EqIgnoreAsciiCase(nick, "nick")
    ensures HandleSetOption(st, ["name", nick, "value"] + vs) == st.(nickname := Join(vs))
  {
    var args := ["name", nick, "value"] + vs;
    assert args[..2] == ["name", nick];
    assert nick != "value";
    assert args[2..][0] == "value";
    assert IndexOf(args[2..], "value") == Some(0);
    assert args[1..][1..] == args[2..];
    assert IndexOf(args[1..], "value") == Some(1);
    assert IndexOf(args, "value") == Some(2);
    assert args[1..2] == [nick];
    assert args[3..] == vs;
  }

  /** The option name is matched without regard to ASCII case: `NICK` and
      `Nick` rename the engine as `nick` does. */
  lemma SetOptionAnyCase<P>(st: EngineState<P>, vs: seq<string>)
    ensures HandleSetOption(st, ["name", "NICK", "value"] + vs) == st.(nickname := Join(vs))
    ensures HandleSetOption(st, ["name", "Nick", "value"] + vs) == st.(nickname := Join(vs))
  {
    assert EqIgnoreAsciiCase("NICK", "nick");
    assert EqIgnoreAsciiCase("Nick", "nick");
    SetOptionRenames(st, "NICK", vs);
    SetOptionRenames(st, "Nick", vs);
  }

  /** After renaming, the `uci` reply identifies the engine by the new name. */
  lemma UciAfterRename<P, M>(rules: Rules<P, M>, st: EngineState<P>, nick: string, vs: seq<string>)
    requires EqIgnoreAsciiCase(nick, "nick")
    ensures var r := Dispatch(rules, st, ["setoption", "name", nick, "value"] + vs);
            && r.Next?
            && Dispatch(rules, r.state, ["uci"]) == Next(r.state, UciLines(Join(vs)), None)
            && UciLines(Join(vs))[0] == "id name " + Join(vs)
            && UciLines(Join(vs))[2] == "option name nick type string default " + Join(vs)
  {
    var tokens := ["setoption", "name", nick, "value"] + vs;
    assert tokens[1..] == ["name", nick, "value"] + vs;
    SetOptionRenames(st, nick, vs);
  }

  // ---------------------------------------------------------------------
  // position

  /** `position` with no argument, or a first argument other than
      `startpos` or `fen`, changes nothing. */
  lemma PositionIgnoresOtherForms<P, M>(rules: Rules<P, M>, st: EngineState<P>, args: seq<string>)
    requires |args| == 0 || (args[0] != "startpos" && args[0] != "fen")
    ensures HandlePosition(rules, st, args) == Quiet(st)
  {
  }

  /** Applying two batches of move texts is applying the first, then the
      second from where the first left off. */
  lemma {:induction false} ApplyMovesAppend<P, M>(rules: Rules<P, M>, pos: P, a: seq<string>, b: seq<string>)
    ensures ApplyMoves(rules, pos, a + b)
            == match ApplyMoves(rules, pos, a)
               case Err(f) => Err(f)
               case Ok(q) => ApplyMoves(rules, q, b)
    decreases |a|
  {
    if |a| == 0 {
      assert a + b == b;
    } else {
      assert (a + b)[0] == a[0];
      assert (a + b)[1..] == a[1..] + b;
      match rules.parseMove(a[0])
      case None =>
      case Some(m) =>
        var next := match rules.play(pos, m) case Some(q) => q case None => pos;
        ApplyMovesAppend(rules, next, a[1..], b);
    }
  }

  /** Move texts panic exactly when one of them is not move syntax. */
  lemma {:induction false} ApplyMovesFails<P, M>(rules: Rules<P, M>, pos: P, moves: seq<string>)
    ensures ApplyMoves(rules, pos, moves).Err? <==>
            exists i | 0 <= i < |moves| :: rules.parseMove(moves[i]).None?
    decreases |moves|
  {
    if |moves| > 0 {
      match rules.parseMove(moves[0])
      case None =>
      case Some(m) =>
        var next := match rules.play(pos, m) case Some(q) => q case None => pos;
        ApplyMovesFails(rules, next, moves[1..]);
        assert forall i | 1 <= i < |moves| :: moves[i] == moves[1..][i - 1];
    }
  }

  /** An illegal but well-formed move is skipped. */
  lemma ApplyMovesSkipsIllegal<P, M>(rules: Rules<P, M>, pos: P, mv: string, rest: seq<string>)
    requires rules.parseMove(mv).Some? && rules.play(pos, rules.parseMove(mv).value).None?
    ensures ApplyMoves(rules, pos, [mv] + rest) == ApplyMoves(rules, pos, rest)
  {
    assert ([mv] + rest)[1..] == rest;
  }

  /** `position fen F… moves M…`: the FEN is the tokens before the first
      `moves`, joined by spaces, and the moves are played from it. */
  lemma PositionFenWithMoves<P, M>(rules: Rules<P, M>, st: EngineState<P>, fen: seq<string>, moves: seq<string>)
    requires "moves" !in fen
    ensures HandlePosition(rules, st, ["fen"] + fen + ["moves"] + moves)
            == match rules.parseFen(Join(fen))
               case None => Panic(InvalidFen)
               case Some(p) =>
                 match ApplyMoves(rules, p, moves)
                 case Err(f) => Panic(f)
                 case Ok(q) => Quiet(st.(pos := q))
  {
    var args := ["fen"] + fen + ["moves"] + moves;
    var k := |fen| + 1;
    assert args[..k] == ["fen"] + fen;
    assert args[k] == "moves";
    assert "moves" !in args[..k];
    assert IndexOf(args, "moves") == Some(k);
    assert args[1..k] == fen;
    assert args[k + 1..] == moves;
  }

  /** `position fen F…` without moves: all tokens after `fen` form the FEN. */
  lemma PositionFenOnly<P, M>(rules: Rules<P, M>, st: EngineState<P>, fen: seq<string>)
    requires "moves" !in fen
    ensures HandlePosition(rules, st, ["fen"] + fen)
            == match rules.parseFen(Join(fen))
               case None => Panic(InvalidFen)
               case Some(p) => Quiet(st.(pos := p))
  {
    var args := ["fen"] + fen;
    assert args[1..] == fen;
    assert "moves" !in args;
  }

  /** `position startpos` without `moves` sets the default position;
      anything after `startpos` is ignored. */
  lemma PositionStartposOnly<P, M>(rules: Rules<P, M>, st: EngineState<P>, junk: seq<string>)
    requires "moves" !in junk
    ensures HandlePosition(rules, st, ["startpos"] + junk) == Quiet(st.(pos := rules.start))
  {
    var args := ["startpos"] + junk;
    assert args[0] == "startpos" && args[1..] == junk;
    assert IndexOf(args, "moves") == None;
  }

  /** `position startpos … moves M…` plays the moves from the default
      position; tokens between `startpos` and `moves` are ignored. */
  lemma PositionStartposWithMoves<P, M>(rules: Rules<P, M>, st: EngineState<P>, junk: seq<string>, moves: seq<string>)
    requires "moves" !in junk
    ensures HandlePosition(rules, st, ["startpos"] + junk + ["moves"] + moves)
            == match ApplyMoves(rules, rules.start, moves)
               case Err(f) => Panic(f)
               case Ok(q) => Quiet(st.(pos := q))
  {
    var args := ["startpos"] + junk + ["moves"] + moves;
    var k := |junk| + 1;
    assert args[..k] == ["startpos"] + junk;
    assert args[k] == "moves";
    assert "moves" !in args[..k];
    assert IndexOf(args, "moves") == Some(k);
    assert args[k + 1..] == moves;
  }

  // ---------------------------------------------------------------------
  // go

  /** Every clock value the scan ends with was either there before or read
      from a `wtime`/`btime` token followed by a parsable number. */
  lemma {:induction false} ScanGoSound(args: seq<string>, i: nat, clocks: Clocks)
    requires i <= |args|
    ensures var r := ScanGo(args, i, clocks);
            && (r.wtime == clocks.wtime
                || exists k | i <= k < |args| - 1 :: args[k] == "wtime" && ParseU64(args[k + 1]) == r.wtime)
            && (r.btime == clocks.btime
                || exists k | i <= k < |args| - 1 :: args[k] == "btime" && ParseU64(args[k + 1]) == r.btime)
    decreases |args| - i
  {
    if i < |args| {
      if IsClockKeyword(args[i]) && i + 1 < |args| {
        var v := ParseU64(args[i + 1]);
        var clocks' :=
          if v.None? then clocks
          else if args[i] == "wtime" then clocks.(wtime := v)
          else clocks.(btime := v);
        ScanGoSound(args, i + 2, clocks');
      } else {
        ScanGoSound(args, i + 1, clocks);
      }
    }
  }

  /** Scanning from inside a suffix ignores what comes before it. */
  lemma {:induction false} ScanGoShift(a: seq<string>, b: seq<string>, j: nat, clocks: Clocks)
    requires j <= |b|
    ensures ScanGo(a + b, |a| + j, clocks) == ScanGo(b, j, clocks)
    decreases |b| - j
  {
    if j < |b| {
      assert (a + b)[|a| + j] == b[j];
      if j + 1 < |b| {
        assert (a + b)[|a| + j + 1] == b[j + 1];
      }
      if IsClockKeyword(b[j]) && j + 1 < |b| {
        var v := ParseU64(b[j + 1]);
        var clocks' :=
          if v.None? then clocks
          else if b[j] == "wtime" then clocks.(wtime := v)
          else clocks.(btime := v);
        ScanGoShift(a, b, j + 2, clocks');
      } else {
        ScanGoShift(a, b, j + 1, clocks);
      }
    }
  }

  /** When the first batch of arguments does not end in a clock keyword,
      scanning both batches is scanning the first, then the second. */
  lemma {:induction false} ScanGoAppend(a: seq<string>, b: seq<string>, i: nat, clocks: Clocks)
    requires i <= |a|
    requires |a| == 0 || !IsClockKeyword(a[|a| - 1])
    ensures ScanGo(a + b, i, clocks) == ScanGo(b, 0, ScanGo(a, i, clocks))
    decreases |a| - i
  {
    if i == |a| {
      ScanGoShift(a, b, 0, clocks);
    } else {
      assert (a + b)[i] == a[i];
      if IsClockKeyword(a[i]) && i + 1 < |a| {
        assert (a + b)[i + 1] == a[i + 1];
        var v := ParseU64(a[i + 1]);
        var clocks' :=
          if v.None? then clocks
          else if a[i] == "wtime" then clocks.(wtime := v)
          else clocks.(btime := v);
        ScanGoAppend(a, b, i + 2, clocks');
      } else {
        ScanGoAppend(a, b, i + 1, clocks);
      }
    }
  }

  /** The last `wtime` wins: appending `wtime N` to arguments that do not end
      in a clock keyword makes N the White clock and keeps the Black one. */
  lemma LastWtimeWins(a: seq<string>, n: nat, clocks: Clocks)
    requires n < U64_LIMIT
    requires |a| == 0 || !IsClockKeyword(a[|a| - 1])
    ensures ScanGo(a + ["wtime", ShowNat(n)], 0, clocks)
            == Clocks(Some(n), ScanGo(a, 0, clocks).btime)
  {
    ScanGoAppend(a, ["wtime", ShowNat(n)], 0, clocks);
    ParseShowNat(n);
  }

  /** `u64` parsing accepts a leading `+`, so `wtime +N` sets White's clock
      to N as well. */
  lemma PlusSignedClock(n: nat, clocks: Clocks)
    requires n < U64_LIMIT
    ensures ScanGo(["wtime", "+" + ShowNat(n)], 0, clocks) == clocks.(wtime := Some(n))
  {
    var t := "+" + ShowNat(n);
    assert t[1..] == ShowNat(n);
    assert ParseU64(t) == Some(n);
  }

  /** A clock value that does not parse is consumed without effect. */
  lemma UnparsableClockIgnored(key: string, value: string, rest: seq<string>, clocks: Clocks)
    requires IsClockKeyword(key) && ParseU64(value).None?
    ensures ScanGo([key, value] + rest, 0, clocks) == ScanGo(rest, 0, clocks)
  {
    ScanGoShift([key, value], rest, 0, clocks);
  }

  /** A search started with both clocks given spends a twentieth of the
      mover's clock. */
  lemma GoBudget<P, M>(rules: Rules<P, M>, st: EngineState<P>, wtime: nat, btime: nat)
    requires !st.thinking && wtime < U64_LIMIT && btime < U64_LIMIT
    ensures var r := HandleGo(rules, st, ["wtime", ShowNat(wtime), "btime", ShowNat(btime)]);
            var mine := if rules.turn(st.pos) == White then wtime else btime;
            r.Next? && r.search.Some? && r.search.value.thinkMillis == mine / CLOCK_DIVISOR
  {
    var args := ["wtime", ShowNat(wtime), "btime", ShowNat(btime)];
    ParseShowNat(wtime);
    ParseShowNat(btime);
    assert ScanGo(args, 4, Clocks(Some(wtime), Some(btime))) == Clocks(Some(wtime), Some(btime));
    assert ScanGo(args, 2, Clocks(Some(wtime), None)) == Clocks(Some(wtime), Some(btime));
    assert ScanGo(args, 0, Clocks(None, None)) == Clocks(Some(wtime), Some(btime));
  }
}
